=== FILE: README.md ===
# Marzipano tour tool: processing queue, tour export and transition angles

This project models the core of a Marzipano-based virtual-tour tool in Dafny. The core has three parts.

1. **The panorama collection** of the browser tool (`Panoramas.js`, `LinkHotspot.js`,
   `InfoHotspot.js`). Panoramas are queued for tiling and processed one at a time, in
   list order. Removing the in-flight panorama cancels it. Each panorama stores its
   levels, preview and tiles. Link and info hotspots are edited on the panoramas.
   - Panoramas keep their identity after removal, because hotspots still point at them.
     The collection is therefore a heap of every panorama ever pushed (`map<nat, Panorama>`)
     plus the list of keys currently shown.
   - Events, processing starts and cancel calls are returned as a list of `Effect`s.
   - A processing completion is an event of its own (`Panoramas.Complete`).
2. **The tour export.**
   - `generateData.js` snapshots the collection into the tour document. Scene ids are
     positional. Link hotspots whose target has been removed are dropped.
   - `getArchive.js` builds the archive in a fixed order: `data.js` (the document, with
     U+2028/U+2029 escaped), then the template files (`.tpl` files rendered), then each
     panorama's preview and tiles. A six-step progress record tracks the run.
   - The zip library, the template engine, `JSON.stringify`, `slug` and the file-name
     helpers are parameters (`Archive.Env`). The tile store is a map from tile coordinates
     to blobs. Its enumeration order is left open: `AddPanoramaTiles` picks keys with `:|`.
3. **The post-editing scripts** (`view_config_generator.py`, `transitions.py`). Both read
   the tour document back and compute, for each pair of linked scenes, the heading to
   enter the target with. That heading is half a revolution from a hotspot's yaw,
   normalised to [-π, π].
   - π is an abstract real constant strictly between 3 and 4 (`Angles.PI`). The proofs use
     no other fact about it, so every angle property holds whatever π is.
   - JSON keys that may be missing are `Option`s. A Python `KeyError` is an explicit
     `Failure(KeyError(key))`.

## Model

| member | source | states |
|---|---|---|
| JsArray.IndexOf | Marzipano-tool/js/tool/Panoramas.js:141-142 | `indexOf` is -1 exactly when the element is absent; otherwise it is the position of the first occurrence |
| JsArray.Splice1 | Marzipano-tool/js/tool/Panoramas.js:293 | `splice(start, 1)` by cases: an in-range start removes that element; a negative start in `-len..-1` removes element `len + start`; a start below `-len` removes the first element; a start at or past the end, or an empty array, leaves the array as it was |
| Decimal.NatToString | Marzipano-tool/js/tool/getArchive.js:163-167 | `toString(10)` of a coordinate is a non-empty string of digits without a leading zero |
| Decimal.ParseNatToString | Marzipano-tool/js/tool/getArchive.js:163-167 | reading the decimal string back gives the number (round trip) |
| Decimal.NatToStringInjective | Marzipano-tool/js/tool/getArchive.js:163-167 | different numbers print differently |
| Decimal.NumberedNameInjective | Marzipano-tool/js/tool/Panoramas.js:264-267 | `i + "-" + a` determines both `i` and `a`: the dash cannot be confused with a digit |
| Angles.ReduceAbove | post-editing-project/marzipano_manager/view_config_generator.py:11-12 | the first loop brings any angle to at most π, leaves an angle already at most π alone, and never overshoots below -π |
| Angles.RaiseBelow | post-editing-project/marzipano_manager/view_config_generator.py:13-14 | the second loop brings any angle to at least -π, leaves an angle already at least -π alone, and never overshoots to π |
| Angles.Normalize | post-editing-project/marzipano_manager/view_config_generator.py:9-15 | `normalize_angle` lands in [-π, π] and is the identity on that range |
| Angles.ReduceAboveTurns | post-editing-project/marzipano_manager/view_config_generator.py:11-12 | the first loop only subtracts whole turns |
| Angles.RaiseBelowTurns | post-editing-project/marzipano_manager/view_config_generator.py:13-14 | the second loop only adds whole turns |
| Angles.NormalizeCoterminal | post-editing-project/marzipano_manager/view_config_generator.py:9-15 | the normalised angle differs from the input by a whole number of turns |
| Angles.NormalizeIdempotent | post-editing-project/marzipano_manager/view_config_generator.py:9-15 | normalising twice is normalising once |
| Hotspots.NewLinkHotspot | Marzipano-tool/js/tool/LinkHotspot.js:18-24 | a new link hotspot has the given position and target, and rotation 0 |
| Hotspots.SetLinkCoordinates | Marzipano-tool/js/tool/LinkHotspot.js:32-36 | `setCoordinates` moves the hotspot and keeps its rotation and target |
| Hotspots.OffsetRotation | Marzipano-tool/js/tool/LinkHotspot.js:42-45 | `offsetRotation` adds exactly `delta` to the rotation; nothing else changes |
| Hotspots.SetTarget | Marzipano-tool/js/tool/LinkHotspot.js:51-54 | `setTarget` replaces the target; nothing else changes |
| Hotspots.OffsetRotationInverse | Marzipano-tool/js/tool/LinkHotspot.js:42-45 | offsetting by `delta` and then by `-delta` restores the hotspot |
| Hotspots.LinkEditsCommute | Marzipano-tool/js/tool/LinkHotspot.js:32-54 | the three edits touch disjoint fields, so any two of them commute |
| Hotspots.NewInfoHotspot | Marzipano-tool/js/tool/InfoHotspot.js:19-32 | a new info hotspot has the given position, title and text, and counts as unchanged |
| Hotspots.SetInfoCoordinates | Marzipano-tool/js/tool/InfoHotspot.js:40-44 | moving sets yaw and pitch, keeps title, text and the initial title and text, and keeps whether the hotspot counts as unchanged |
| Hotspots.IsUnchanged | Marzipano-tool/js/tool/InfoHotspot.js:49-51 | a hotspot counts as unchanged exactly when it would export its initial title and text |
| Hotspots.EditTitle | Marzipano-tool/js/tool/InfoHotspot.js:49-51 | a title edit sets the title and nothing else; afterwards the hotspot is unchanged exactly when title and text equal the initial ones |
| Hotspots.EditText | Marzipano-tool/js/tool/InfoHotspot.js:49-51 | a text edit sets the text and nothing else; afterwards the hotspot is unchanged exactly when title and text equal the initial ones |
| Hotspots.InfoToObject | Marzipano-tool/js/tool/InfoHotspot.js:56-63 | `toObject` exports position, title and text |
| Hotspots.EditTitleBackIsUnchanged | Marzipano-tool/js/tool/InfoHotspot.js:49-51 | editing the title and editing it back to the initial state restores "unchanged"; a different title loses it |
| Hotspots.InfoToObjectIgnoresInitials | Marzipano-tool/js/tool/InfoHotspot.js:56-63 | the export does not depend on the remembered initial title and text |
| Panorama.NewPanorama | Marzipano-tool/js/tool/Panoramas.js:35-68 | a new entry is queued, has no tiles, levels or preview, looks straight ahead with a 90-degree field of view, and has no hotspots |
| Panorama.Files | Marzipano-tool/js/tool/Panoramas.js:272-278 | an equirectangular entry has its one file; a cube entry has its face files in enumeration order |
| Panorama.AddTile | Marzipano-tool/js/tool/Panoramas.js:177-179 | the tile is stored under its coordinates, every other tile is kept, and no other field of the panorama changes |
| Panorama.EffectiveFaceSize | Marzipano-tool/js/tool/Panoramas.js:217-218 | the face size is the requested size capped by the largest level, or the largest level when no size was requested |
| Panorama.SetLevels | Marzipano-tool/js/tool/Panoramas.js:197-221 | fails exactly on a second call or on an empty level list with no preview size; otherwise stores the levels, with a fallback-only preview level in front when a preview size is given, and the derived face size |
| Panorama.SetCubeMapPreview | Marzipano-tool/js/tool/Panoramas.js:184-192 | succeeds exactly when no preview is stored and a preview size was set; only the preview changes |
| Panorama.SetLevelsWriteOnce | Marzipano-tool/js/tool/Panoramas.js:200-202 | after one successful call, every further call fails with "already set", whatever its arguments |
| Panorama.PreviewAfterLevels | Marzipano-tool/js/tool/Panoramas.js:184-215 | after `setLevels`, a preview can be stored exactly when a preview size was given, and only once |
| Panorama.FaceSizeFromFinestLevel | Marzipano-tool/js/tool/Panoramas.js:206-218 | the prepended preview level never decides the face size: it comes from the last requested level |
| Panorama.AddLinkHotspot | Marzipano-tool/js/tool/Panoramas.js:283-286 | the hotspot is appended after the existing ones; no other field of the panorama changes |
| Panorama.AddInfoHotspot | Marzipano-tool/js/tool/Panoramas.js:300-303 | the hotspot is appended after the existing ones; no other field of the panorama changes |
| Panorama.RemoveFirst | Marzipano-tool/js/tool/Panoramas.js:291-295 | intended removal: an absent element leaves the list as it is; a present one is removed once at its first position (a multiset difference of one) |
| Panorama.RemoveLinkHotspotAsWritten | Marzipano-tool/js/tool/Panoramas.js:291-295 | removing a present hotspot removes its first occurrence; no other field of the panorama changes |
| Panorama.RemoveInfoHotspotAsWritten | Marzipano-tool/js/tool/Panoramas.js:308-312 | removing a present hotspot removes its first occurrence; no other field of the panorama changes |
| Panorama.RemoveAbsentLinkDropsLast | Marzipano-tool/js/tool/Panoramas.js:291-295 | as written, removing an absent hotspot deletes the last link hotspot (see Findings) |
| Panorama.RemoveAbsentInfoDropsLast | Marzipano-tool/js/tool/Panoramas.js:308-312 | as written, removing an absent hotspot deletes the last info hotspot (see Findings) |
| Panorama.RemoveLinkHotspot | Marzipano-tool/js/tool/Panoramas.js:291-295 | corrected removal: first occurrence removed, an absent hotspot changes nothing; no other field of the panorama changes |
| Panorama.RemoveInfoHotspot | Marzipano-tool/js/tool/Panoramas.js:308-312 | corrected removal: first occurrence removed, an absent hotspot changes nothing; no other field of the panorama changes |
| Panorama.AddRemoveLinkHotspot | Marzipano-tool/js/tool/Panoramas.js:283-295 | adding a new link hotspot and removing it restores the panorama |
| Panorama.AddRemoveInfoHotspot | Marzipano-tool/js/tool/Panoramas.js:300-312 | adding a new info hotspot and removing it restores the panorama |
| Panoramas.Empty | Marzipano-tool/js/tool/Panoramas.js:73-89 | the empty collection satisfies the queue invariant, with nothing processing or selected |
| Panoramas.FirstQueued | Marzipano-tool/js/tool/Panoramas.js:98-100 | lodash `find`: the first queued position at or after `from`, or none when no later entry is queued |
| Panoramas.HandleListChange | Marzipano-tool/js/tool/Panoramas.js:95-126 | with the slot free and a queued entry, exactly the first queued entry is started and put in the slot, announced and handed to processing; otherwise nothing happens |
| Panoramas.RescanSettles | Marzipano-tool/js/tool/Panoramas.js:95-126 | the rescan keeps the queue invariant and leaves the collection settled: either something is processing or nothing is queued |
| Panoramas.FinalStatus | Marzipano-tool/js/tool/Panoramas.js:107-114 | the completion outcome maps to cancelled exactly for the error "cancelled", to failed exactly for any other error, and to successful exactly when there is no error; each is a legal move from started |
| Panoramas.Complete | Marzipano-tool/js/tool/Panoramas.js:106-118 | completion changes only the finished entry's status, to the outcome's terminal status, and the status of the first queued entry, which it starts when there is one; the events are exactly `changed`, then `processingFailed` on failure, then, when an entry is started, `changed` and its start; the slot is freed or holds the started entry; the invariant is kept |
| Panoramas.FinishThenRescan | Marzipano-tool/js/tool/Panoramas.js:106-118 | after a completion and the rescan the invariant holds, the finished entry keeps its terminal status, and the slot holds the first queued entry or nothing |
| Panoramas.RescanEffects | Marzipano-tool/js/tool/Panoramas.js:95-118 | the rescan after a completion reports no failure of its own and announces the start of the first queued entry |
| Panoramas.Remove | Marzipano-tool/js/tool/Panoramas.js:132-160 | a declined confirmation or an unlisted entry changes nothing; otherwise the entry found by `indexOf` is dropped as `DropAt` states |
| Panoramas.NeedsConfirmation | Marzipano-tool/js/tool/Panoramas.js:133-135 | the dialog is skipped exactly for an entry that is queued, failed or cancelled |
| Panoramas.DropAt | Marzipano-tool/js/tool/Panoramas.js:141-160 | the entry leaves the list and every later entry moves up by one; the object store and slot are untouched; its processing is cancelled exactly when it is in flight; a removed selection moves to the new first entry, announced, or to nothing; the invariant is kept |
| Panoramas.Push | Marzipano-tool/js/tool/Panoramas.js:73-89 | a new queued entry is appended and started at once if the slot is free; it is selected if nothing was; every existing entry is untouched |
| Panoramas.AppendThenRescan | Marzipano-tool/js/tool/Panoramas.js:73-83 | appending a fresh queued entry and rescanning keeps the invariant, keeps every existing entry, and starts the new entry exactly when the slot was free |
| Panoramas.AppendKeepsCore | Marzipano-tool/js/tool/Panoramas.js:73-83 | appending a fresh queued entry keeps the queue invariant, and with the slot free it is the first queued entry |
| Panoramas.SetSelected | Marzipano-tool/js/tool/Panoramas.js:166-169 | the selection becomes the entry and is announced; nothing else changes; the invariant is kept even when the entry was already removed from the list, since a non-empty list still has a selection and every selection is a known entry |
| Panoramas.Removed | Marzipano-tool/js/tool/Panoramas.js:243-245 | `removed()` holds exactly when the entry is not listed |
| Panoramas.UniqueIdPositional | Marzipano-tool/js/tool/Panoramas.js:264-267 | a listed entry's id is its position, a dash, and the slug of its name |
| Panoramas.UniqueIdsDistinct | Marzipano-tool/js/tool/Panoramas.js:264-267 | distinct listed entries have distinct ids, whatever the slugs are |
| Panoramas.RemoveRenumbers | Marzipano-tool/js/tool/Panoramas.js:132-160 | removing an entry renumbers every later entry's id down by one |
| Panoramas.HasValidTarget | Marzipano-tool/js/tool/LinkHotspot.js:71-73 | a target is valid exactly when it is set and still listed |
| Panoramas.LinkToObject | Marzipano-tool/js/tool/LinkHotspot.js:59-66 | `toObject` succeeds exactly when the target is set and exports position, rotation and the target's unique id |
| Panoramas.ValidTargetExportsItsEntry | Marzipano-tool/js/tool/LinkHotspot.js:59-73 | a valid target exports the id of the entry it points at, and no other listed entry has that id |
| Panoramas.AtMostOneStarted | Marzipano-tool/js/tool/Panoramas.js:95-126 | at most one entry is started, and it is the one in the processing slot |
| Panoramas.StartedAfterPredecessorsFinished | Marzipano-tool/js/tool/Panoramas.js:95-126 | first in, first out: every entry before the started one has finished |
| Panoramas.RemoveQueuedWithoutConfirmation | Marzipano-tool/js/tool/Panoramas.js:132-144 | a queued entry is removed without asking, and the processing slot is untouched |
| Panoramas.RemoveInFlightThenCancelled | Marzipano-tool/js/tool/Panoramas.js:106-151 | removing the in-flight entry cancels it exactly once and starts nothing; its completion then marks it cancelled, is not reported as a failure, and can only start a still-listed entry |
| TourData.ValidLinks | Marzipano-tool/js/tool/generateData.js:20-23 | the filter keeps exactly the hotspots with a valid target |
| TourData.ValidLinksAppend | Marzipano-tool/js/tool/generateData.js:20-23 | the filter keeps relative order: it distributes over concatenation |
| TourData.ValidLinksAllValid | Marzipano-tool/js/tool/generateData.js:20-23 | when every target is valid the filter keeps everything |
| TourData.ExportLinks | Marzipano-tool/js/tool/generateData.js:24-26 | each kept hotspot is exported by `toObject`, in order |
| TourData.ExportInfos | Marzipano-tool/js/tool/generateData.js:29-31 | each info hotspot is exported by `toObject`, in order |
| TourData.GenerateData | Marzipano-tool/js/tool/generateData.js:16-46 | one scene per listed entry, in list order, carrying the entry's id, name, levels, face size, view, valid link hotspots and all info hotspots; name and settings are passed through |
| TourData.ExportedTargetsAreScenes | Marzipano-tool/js/tool/generateData.js:18-34 | every exported link target is the id of a scene of the same document |
| TourData.RemovedTargetDropped | Marzipano-tool/js/tool/generateData.js:18-34 | a link hotspot whose target has left the list is not exported, while the scene keeps every info hotspot |
| Escape.ReplaceAll | Marzipano-tool/js/tool/getArchive.js:97-98 | a global one-character replace leaves a string without the character alone and removes every occurrence when the replacement does not contain it |
| Escape.ReplaceAllKeepsAbsent | Marzipano-tool/js/tool/getArchive.js:97-98 | a character in neither the text nor the replacement is still absent afterwards |
| Escape.ReplaceAllAppend | Marzipano-tool/js/tool/getArchive.js:97-98 | replacement acts on each part of a concatenation separately |
| Escape.EscapeSeparators | Marzipano-tool/js/tool/getArchive.js:95-98 | no separator survives, and text without separators is unchanged |
| Escape.EscapeSeparatorsIdempotent | Marzipano-tool/js/tool/getArchive.js:97-98 | escaping an already escaped document changes nothing |
| Escape.EscapeSeparatorsIsCharwise | Marzipano-tool/js/tool/getArchive.js:97-98 | the two whole-string passes equal the one-character-at-a-time escaping |
| Escape.EscapeSeparatorsAppend | Marzipano-tool/js/tool/getArchive.js:97-98 | escaping distributes over concatenation |
| Escape.DataJs | Marzipano-tool/js/tool/getArchive.js:99 | `data.js` is `var APP_DATA = `, the escaped document and `;` plus a newline, and contains no separator |
| Archive.DataEntry | Marzipano-tool/js/tool/getArchive.js:94-101 | the document is stored as `app-files/data.js` with no raw separator in it |
| Archive.TemplateEntry | Marzipano-tool/js/tool/getArchive.js:114-129 | a `.tpl` file is rendered and stored under its extension-stripped name, failing exactly when rendering throws; any other file is copied verbatim |
| Archive.ProcessTemplates | Marzipano-tool/js/tool/getArchive.js:112-132 | succeeds exactly when every file does, with one entry per file in order; on failure, it reports the first failing file's error |
| Archive.ProcessTemplatesAppend | Marzipano-tool/js/tool/getArchive.js:112-132 | the sequential pass over a concatenation processes the first part, then the second |
| Archive.AddTemplateFiles | Marzipano-tool/js/tool/getArchive.js:107-133 | a missing template list fails with "Template files not loaded" before anything is added |
| Archive.TileDir | Marzipano-tool/js/tool/getArchive.js:145-166 | a tile's directory is `app-files`, `tiles`, the panorama's unique id, then the decimal level, the face, the decimal x and the decimal y |
| Archive.PreviewEntry | Marzipano-tool/js/tool/getArchive.js:145-152 | the preview sits directly in the panorama's directory |
| Archive.TilePathsDistinct | Marzipano-tool/js/tool/getArchive.js:145-168 | two tiles with the same path are the same tile of the same panorama |
| Archive.PreviewIsNotATile | Marzipano-tool/js/tool/getArchive.js:145-168 | a preview never shares a directory with a tile |
| Archive.EnumerateTiles | Marzipano-tool/js/tool/getArchive.js:155-173 | the store's walk visits every stored tile key, each at its own position, as many steps as there are tiles |
| Archive.AddPanoramaTiles | Marzipano-tool/js/tool/getArchive.js:144-173 | the panorama's part is exactly its preview, when there is one, followed by one entry per stored tile in the store's walk order, each tile once (`PanoramaShape`); every stored tile's entry is in it and the count is the number of stored tiles |
| Archive.ShapeSize | Marzipano-tool/js/tool/getArchive.js:144-173 | a panorama's part has one entry per stored tile plus one for a preview |
| Archive.ExportedGrows | Marzipano-tool/js/tool/getArchive.js:139-180 | what is in the archive stays in it as entries are added |
| Archive.TotalTilesStep | Marzipano-tool/js/tool/getArchive.js:140-170 | the running tile count grows by each panorama's tile count |
| Archive.ListedPartsSize | Marzipano-tool/js/tool/getArchive.js:139-180 | the parts of the first n listed panoramas hold, together, their stored tiles plus their previews and nothing more |
| Archive.AddTilesStep | Marzipano-tool/js/tool/getArchive.js:140-170 | one more panorama's part extends the concatenation, the per-panorama shapes, the tile count and the exported set |
| Archive.AddTilesLoop | Marzipano-tool/js/tool/getArchive.js:140-170 | the loop over the listed panoramas ends with one part per listed panorama, concatenated in list order, and the running tile count |
| Archive.TilesDone | Marzipano-tool/js/tool/getArchive.js:139-180 | after the last panorama, the entries are the whole list's parts, sized by its tiles and previews |
| Archive.AddTiles | Marzipano-tool/js/tool/getArchive.js:139-180 | the entries are exactly the listed panoramas' parts concatenated in list order, each part its panorama's preview and tiles under its unique id; there are as many entries as stored tiles plus previews, and the count is the total number of stored tiles |
| Archive.Steps | Marzipano-tool/js/tool/getArchive.js:46-80 | the steps are created in their fixed order, and all but the newest have succeeded |
| Archive.ArchiveName | Marzipano-tool/js/tool/getArchive.js:78 | the file is the slug of the tour name plus `.zip`, or `marzipano-tour.zip` when the slug is empty |
| Archive.GetArchive | Marzipano-tool/js/tool/getArchive.js:29-88 | with the template files loaded and rendered, the archive is exactly `data.js`, then the templates in order, then the listed panoramas' parts in list order, and the run succeeds exactly when the zip is generated, failing with the generator's error otherwise; the steps succeed in order and the first error stops the run with that step and the parent still started; on success, six steps, the parent successful, the zip saved under the archive name with the zip MIME type, and its byte length recorded |
| PyTour.SceneLinks | post-editing-project/marzipano_manager/view_config_generator.py:57 | a scene's links are its hotspots in order, tagged with the scene's id |
| PyTour.LinksMembership | post-editing-project/marzipano_manager/view_config_generator.py:54-57 | a link is visited exactly when its hotspot sits in a scene with its source id |
| PyTour.Ids | post-editing-project/marzipano_manager/view_config_generator.py:40-41 | the scene ids are exactly the ids of the listed scenes |
| ViewConfig.InitConfig | post-editing-project/marzipano_manager/view_config_generator.py:40-51 | one entry per scene id, each level and with no arrival views yet |
| ViewConfig.InitConfigLastWins | post-editing-project/marzipano_manager/view_config_generator.py:40-51 | a repeated id keeps the yaw and fov of its last scene |
| ViewConfig.FindScene | post-editing-project/marzipano_manager/view_config_generator.py:66 | finds a scene exactly when the id exists, and returns the first scene with that id |
| ViewConfig.FindReturn | post-editing-project/marzipano_manager/view_config_generator.py:69-72 | the yaw of the first hotspot that leads back to the source, or none when no hotspot does; a missing target or yaw raises `KeyError` |
| ViewConfig.FindReturnAt | post-editing-project/marzipano_manager/view_config_generator.py:69-72 | the search stops at the first hotspot without a target or leading back: there it raises `KeyError` on `target`, or on `yaw` for a return hotspot without one, or yields that hotspot's yaw |
| ViewConfig.FindReturnNone | post-editing-project/marzipano_manager/view_config_generator.py:69-72 | when every hotspot has a target other than the source, the search yields nothing and raises nothing |
| ViewConfig.EntryYaw | post-editing-project/marzipano_manager/view_config_generator.py:63-80 | the entry heading is in [-π, π]; it is half a turn from the return hotspot when there is one, and otherwise half a turn from the clicked hotspot, whose missing yaw raises `KeyError`; an error of the return search is the error of the whole |
| ViewConfig.LinkStep | post-editing-project/marzipano_manager/view_config_generator.py:58-94 | one link succeeds exactly when it has a target, its heading can be computed and its target is known; it then writes exactly one arrival view, on the target's `ifCameFrom` under the source, level and with the target's fov |
| ViewConfig.LinkStepSets | post-editing-project/marzipano_manager/view_config_generator.py:89-94 | a successful link stores, under its source in its target's `ifCameFrom`, the level view with the entry heading and the target's fov |
| ViewConfig.LinkStepKeeps | post-editing-project/marzipano_manager/view_config_generator.py:89-94 | a link from another source or to another target leaves a stored view alone |
| ViewConfig.ApplyLinks | post-editing-project/marzipano_manager/view_config_generator.py:54-94 | the loops keep the scene ids and default views, and every arrival view stays level, normalised and at its scene's fov |
| ViewConfig.ApplyLinksSucceeds | post-editing-project/marzipano_manager/view_config_generator.py:54-94 | the loops complete exactly when no link raises |
| ViewConfig.ApplyLinksCameFrom | post-editing-project/marzipano_manager/view_config_generator.py:89-94 | after the loops, `a` is in the `ifCameFrom` of `k` exactly when some link leads from `a` to `k` (or it was there before) |
| ViewConfig.ApplyLinksLastWins | post-editing-project/marzipano_manager/view_config_generator.py:89-94 | the view stored for `a` in `k` comes from the last link from `a` to `k` |
| ViewConfig.GenerateShape | post-editing-project/marzipano_manager/view_config_generator.py:37-96 | the result has one entry per scene id, with its last scene's default view, and every arrival view is level, normalised and at the target's fov |
| ViewConfig.GenerateCameFrom | post-editing-project/marzipano_manager/view_config_generator.py:54-94 | the arrival views of scene `b` are keyed by exactly the ids of the scenes that hold a hotspot targeting `b` |
| ViewConfig.GenerateSucceeds | post-editing-project/marzipano_manager/view_config_generator.py:54-94 | as written, the run completes exactly when every link has a known target and a computable heading |
| ViewConfig.UnknownTargetRejected | post-editing-project/marzipano_manager/view_config_generator.py:86-89 | as written, one link to an unknown scene makes the whole run fail (see Findings) |
| ViewConfig.UnknownTargetExample | post-editing-project/marzipano_manager/view_config_generator.py:86-89 | a scene "a" linking to a missing "b" raises `KeyError('b')`; the guarded version completes (see Findings) |
| ViewConfig.GenerateGuardedSucceeds | post-editing-project/marzipano_manager/view_config_generator.py:89-94 | with the lookup under the guard, the run completes exactly when every link has a target and a computable heading |
| ViewConfig.GuardIrrelevant | post-editing-project/marzipano_manager/view_config_generator.py:86-94 | the guard changes nothing for links whose targets all exist |
| ViewConfig.GuardedStep | post-editing-project/marzipano_manager/view_config_generator.py:86-94 | for one link whose target is known, the guarded and unguarded steps agree |
| ViewConfig.GuardedAgreesOnKnownTargets | post-editing-project/marzipano_manager/view_config_generator.py:86-94 | when every target names a scene, the corrected version computes what the program as written computes |
| Transitions.ArrivalOf | post-editing-project/marzipano_manager/transitions.py:24-43 | an arrival records target and source, with a heading in [-π, π] half a turn from the yaw (0 when missing) |
| Transitions.Arrivals | post-editing-project/marzipano_manager/transitions.py:20-43 | the arrivals are exactly those of links with a truthy target, each with a normalised heading |
| Transitions.ArrivalsSingle | post-editing-project/marzipano_manager/transitions.py:23-43 | one link records one arrival when its target is truthy and none otherwise |
| Transitions.ArrivalsAppend | post-editing-project/marzipano_manager/transitions.py:20-43 | arrivals are recorded in visiting order: those of a concatenation are the first part's followed by the second's |
| Transitions.ArrivalPosition | post-editing-project/marzipano_manager/transitions.py:20-43 | the arrival of the link at a position follows the arrivals of all links before it and precedes those after it |
| Transitions.LaterLink | post-editing-project/marzipano_manager/transitions.py:20-43 | an arrival recorded after a link's own comes from a later link with a truthy target |
| Transitions.RecordKeys | post-editing-project/marzipano_manager/transitions.py:51-52 | the scene's angle map gains exactly the sources of the arrivals for it |
| Transitions.RecordValues | post-editing-project/marzipano_manager/transitions.py:51-52 | an unwritten key keeps its value; a written key holds the heading of an arrival from that source |
| Transitions.RecordLastWins | post-editing-project/marzipano_manager/transitions.py:51-52 | for several arrivals from one source, the last one's heading is kept |
| Transitions.PrefixLastWins | post-editing-project/marzipano_manager/transitions.py:51-52 | the last-wins property over the first `k` arrivals, the induction behind it |
| Transitions.UpdateScene | post-editing-project/marzipano_manager/transitions.py:46-52 | only `entryAngles` changes, and only for a targeted scene, which gains the recorded map |
| Transitions.CalculateEntryAngles | post-editing-project/marzipano_manager/transitions.py:9-54 | every scene is updated against the arrivals of the whole document, and the scene list keeps its length and order |
| Transitions.TargetedIff | post-editing-project/marzipano_manager/transitions.py:20-48 | a scene gains entry angles exactly when some hotspot targets its id with a truthy target |
| Transitions.EntryAnglesContents | post-editing-project/marzipano_manager/transitions.py:46-52 | a targeted scene's map is its old keys plus the linking scenes; unwritten keys keep their values, and written values are normalised headings |
| Transitions.FromsAreLinkingScenes | post-editing-project/marzipano_manager/transitions.py:20-52 | the keys written are exactly the ids of scenes that hold a hotspot targeting the scene |
| Transitions.LastLinkWins | post-editing-project/marzipano_manager/transitions.py:20-52 | for several arrivals from one source to one target, the last one recorded sets the heading |
| Transitions.LastLinkWinsAt | post-editing-project/marzipano_manager/transitions.py:20-52 | the link at a position of the visiting order with a truthy target sets its source's heading into the target, half a turn from its yaw, unless a later link from the same source to the same target does |

## Left out

- The DOM and knockout bindings, the confirmation dialog and `oneShotEdit`. The author's answer to `window.confirm` is the `confirmed` parameter of `Panoramas.Remove`.
- `processPanorama`, the worker that tiles a panorama. It appears only as the `StartProcessing`/`CancelProcessing` effects and the later `Panoramas.Complete` event.
- The cancel function runs after the removal and its completion is a separate event. A cancel function that called back synchronously would start the next entry inside `_remove`. That ordering is not modelled.
- Event payloads and listener wiring (`emit`, `addEventListener`, forwarding of `changed`). Only the collection's own events (`changed`, processing start, cancel and failure, `selectedPanoramaChanged`) appear as named effects.
- The per-panorama and per-hotspot events are not modelled: `levelsSet` (Marzipano-tool/js/tool/Panoramas.js:220), `linkHotspotAdded`/`linkHotspotRemoved`/`infoHotspotAdded`/`infoHotspotRemoved` (Marzipano-tool/js/tool/Panoramas.js:285-311), and `coordinatesChanged`/`rotationChanged`/`targetChanged` (Marzipano-tool/js/tool/LinkHotspot.js:35-53, Marzipano-tool/js/tool/InfoHotspot.js:43). Only the previewer listens to them (Marzipano-tool/js/tool/Previewer.js:71, Marzipano-tool/js/tool/PreviewerHotspots.js:57-60), and the previewer is not part of this model.
- The `ProcessingState` metadata payload (`tourData`, `tileNum`, `byteLength`). Only `tileNum` and `byteLength` are kept, in `Archive.Progress`.
- `zip.destroy`, `new Blob` and `FileSaver`. These are side effects on objects outside the model. `Archive.Saved` records what would be saved.
- Floating-point arithmetic. Angles are exact reals and π is abstract, so rounding near ±π is not modelled.
- JSON values other than what the scripts read. A JSON `null` target or yaw is treated like a missing key.
- A scene without `id` raises `KeyError` at view_config_generator.py:41, 55 and 66 and at transitions.py:21 and 47. The model gives every scene an `id` (`PyTour.PyScene`), so this error is not modelled.
- `generateData` and `getArchive` accept any array of panoramas. The model always passes the collection's own list: `TourData.GenerateData`, `Archive.AddTiles` and `Archive.GetArchive` export `c.list`. A subset array is not modelled. With one, a valid link target could name a listed panorama that is not a scene of the document, so `TourData.ExportedTargetsAreScenes` relies on this choice. An unlisted panorama would have its tiles stored under the bare slug (Panoramas.js:264-265), a case the model cannot express.
- A scene without `initialViewParameters` raises `KeyError` at view_config_generator.py:42. The model always has a (possibly empty) view-parameter object, with missing yaw and fov defaulted as the code does.
- `Previewer*.js`, `TileStoreSource.js`, `index.js`, the editor and player scripts, `runtime.js` and the Python file, server, parser and patcher modules. They are the viewer, the I/O and the UI around the core, not the core.
- Panorama.SetLevels: on an empty level list with no preview size, the source first stores the empty levels and the preview size and then throws a TypeError. The model returns `Failure(NoLevels)` and leaves the panorama unchanged.
- Archive.GetArchive: the source throws synchronously for a missing template list and asynchronously, uncaught, for later errors. The model returns both as a `Failure` outcome with the parent still started.
- Hotspots are values: `indexOf` on a hotspot list finds the first hotspot EQUAL to the argument, where the source compares object identity. Two hotspots with identical fields are not told apart.
- Archive.TemplateEntry: template files are text; binary template assets are not distinguished.
- PyTour.Links: a scene without `linkHotspots` is modelled as an empty list, which is what `.get('linkHotspots', [])` yields.
- Panoramas.UniqueId, ViewConfig.Generate and ViewConfig.GenerateGuarded carry no contract of their own. Their properties are the lemmas listed above.

## Notes on the source

- `getArchive` never marks the parent or a step as failed. Every error is thrown, so a failed export leaves the parent and the running step `started`. `Archive.GetArchive` states exactly that.
- `zip.destroy()` runs only after a successful `generate`, not on every path.
- A tile's path repeats its `y` coordinate: `.../<level>/<face>/<x>/<y>/<y>.jpg`.

## Findings

| source | as written | input that shows it | evidently intended | confidence | as-written member | corrected member |
|---|---|---|---|---|---|---|
| Marzipano-tool/js/tool/Panoramas.js:291-295 | `splice(indexOf(h), 1)` with `indexOf` returning -1 for an absent hotspot | a panorama with link hotspots `[h1]`, and `removeLinkHotspot(h2)` for an `h2` not in the list: `splice(-1, 1)` deletes `h1` | an absent hotspot leaves the list unchanged | medium, not executed | Panorama.RemoveAbsentLinkDropsLast | Panorama.RemoveLinkHotspot |
| Marzipano-tool/js/tool/Panoramas.js:308-312 | the same `splice(indexOf(h), 1)` for info hotspots | info hotspots `[i1]` and `removeInfoHotspot(i2)` for an absent `i2`: `i1` is deleted | an absent hotspot leaves the list unchanged | medium, not executed | Panorama.RemoveAbsentInfoDropsLast | Panorama.RemoveInfoHotspot |
| post-editing-project/marzipano_manager/view_config_generator.py:86-89 | `view_config[target_id]` is read at line 86, before the `if target_id in view_config` guard at line 89 | one scene `a` with a link hotspot targeting `b`, with no scene `b`: `KeyError('b')` | a link to an unknown scene is skipped, as the guard intends | high, not executed | ViewConfig.UnknownTargetExample | ViewConfig.GenerateGuardedSucceeds |

=== FILE: angles.dfy ===
/** Angles in radians, as the post-editing scripts normalise them. Real arithmetic is
    exact here; π is an abstract constant known only to lie between 3 and 4. */
module Angles {

  type PiRange = r: real | 3.0 < r < 4.0 witness 3.5

  /** Some value strictly between 3 and 4; nothing else about it is assumed. */
  const SomePi: PiRange

  /** Python's `math.pi` (and JavaScript's `Math.PI`). */
  const PI: real := SomePi as real

  /** `a` turned by `k` whole revolutions. */
  function Turn(a: real, k: int): real {
    a + (k as real) * 2.0 * PI
  }

  /** Both angles name the same direction. */
  ghost predicate Coterminal(a: real, b: real) {
    exists k: int :: b == Turn(a, k)
  }

  /** The first loop of `normalize_angle`: subtract 2π while the angle exceeds π. */
  function ReduceAbove(a: real): (r: real)
    ensures r <= PI
    ensures a <= PI ==> r == a
    ensures a > PI ==> -PI < r
    decreases if a > PI then (a - PI).Floor + 1 else 0
  {
    if a > PI then ReduceAbove(a - 2.0 * PI) else a
  }

  /** The second loop of `normalize_angle`: add 2π while the angle is below -π. */
  function RaiseBelow(a: real): (r: real)
    ensures -PI <= r
    ensures -PI <= a ==> r == a
    ensures a < -PI ==> r < PI
    decreases if a < -PI then (-PI - a).Floor + 1 else 0
  {
    if a < -PI then RaiseBelow(a + 2.0 * PI) else a
  }

  /** `normalize_angle`: the two loops in order. */
  function Normalize(a: real): (r: real)
    ensures -PI <= r <= PI
    ensures -PI <= a <= PI ==> r == a
  {
    RaiseBelow(ReduceAbove(a))
  }

  lemma {:induction false} ReduceAboveTurns(a: real) returns (k: int)
    ensures ReduceAbove(a) == Turn(a, k)
    decreases if a > PI then (a - PI).Floor + 1 else 0
  {
    if a > PI {
      var k' := ReduceAboveTurns(a - 2.0 * PI);
      k := k' - 1;
    } else {
      k := 0;
    }
  }

  lemma {:induction false} RaiseBelowTurns(a: real) returns (k: int)
    ensures RaiseBelow(a) == Turn(a, k)
    decreases if a < -PI then (-PI - a).Floor + 1 else 0
  {
    if a < -PI {
      var k' := RaiseBelowTurns(a + 2.0 * PI);
      k := k' + 1;
    } else {
      k := 0;
    }
  }

  /** Normalising only adds whole revolutions: the direction is unchanged. */
  lemma NormalizeCoterminal(a: real)
    ensures Coterminal(a, Normalize(a))
  {
    var k1 := ReduceAboveTurns(a);
    var k2 := RaiseBelowTurns(ReduceAbove(a));
    assert Normalize(a) == Turn(a, k1 + k2);
  }

  /** Normalising twice is normalising once. */
  lemma NormalizeIdempotent(a: real)
    ensures Normalize(Normalize(a)) == Normalize(a)
  {
  }
}

=== FILE: archive.dfy ===
/** `getArchive`: the exported tour as a list of zip entries, added in a fixed order
    (`data.js`, the template files, then every panorama's preview and tiles), tracked by a
    six-step progress record. The zip library, the template engine, `JSON.stringify`,
    `slug` and the extension helpers are parameters (`Env`); the tile store is a map. */
module Archive {
  import opened Wrappers
  import opened Decimal
  import opened Processing
  import opened Panorama
  import opened Panoramas
  import opened TourData
  import opened Escape

  datatype Contents = Text(text: string) | Binary(bytes: Blob)

  /** One `zip.add(path, name, contents)`. */
  datatype ZipEntry = ZipEntry(dir: seq<string>, name: string, contents: Contents)

  /** A file of the viewer template, loaded before the export starts. */
  datatype TemplateFile = TemplateFile(name: string, data: string)

  /** The collaborators `getArchive` calls but does not define. `render(t, d)` is
      `template(t)(d)`, which may throw; `generate` is the zip library's serialiser. */
  datatype Env = Env(
    stringify: TourDoc -> string,
    render: (string, TourDoc) -> Result<string, string>,
    fileExt: string -> string,
    fileNoExt: string -> string,
    slug: string -> string,
    generate: seq<ZipEntry> -> Result<Blob, string>)

  const ZipMimeType: string := "application/zip"
  const DefaultArchiveName: string := "marzipano-tour"
  const TemplateFilesMissing: string := "Template files not loaded"

  // ---------------------------------------------------------------- data.js

  /** `addTourData`: the escaped document as `app-files/data.js`. */
  function DataEntry(doc: TourDoc, env: Env): (e: ZipEntry)
    ensures e.dir == ["app-files"] && e.name == "data.js"
    ensures e.contents == Text(DataJs(env.stringify(doc)))
    ensures LineSeparator !in e.contents.text && ParagraphSeparator !in e.contents.text
  {
    ZipEntry(["app-files"], "data.js", Text(DataJs(env.stringify(doc))))
  }

  // ---------------------------------------------------------------- template files

  predicate IsTemplate(f: TemplateFile, env: Env) {
    env.fileExt(f.name) == "tpl"
  }

  /** The entry one template file contributes: a `.tpl` file is rendered against the
      document and stored without its extension; anything else is copied verbatim. */
  function TemplateEntry(f: TemplateFile, doc: TourDoc, env: Env): (r: Result<ZipEntry, string>)
    ensures !IsTemplate(f, env) ==> r == Success(ZipEntry([], f.name, Text(f.data)))
    ensures IsTemplate(f, env) ==> (r.Success? <==> env.render(f.data, doc).Success?)
    ensures IsTemplate(f, env) && r.Success? ==>
      r.value == ZipEntry([], env.fileNoExt(f.name), Text(env.render(f.data, doc).value))
    ensures r.Failure? ==> r.error == env.render(f.data, doc).error
  {
    if IsTemplate(f, env) then
      match env.render(f.data, doc)
      case Success(text) => Success(ZipEntry([], env.fileNoExt(f.name), Text(text)))
      case Failure(e) => Failure(e)
    else Success(ZipEntry([], f.name, Text(f.data)))
  }

  /** The `async.eachSeries` over the template files: entries in input order; the first
      render error ends the sequence and is reported. */
  function ProcessTemplates(fs: seq<TemplateFile>, doc: TourDoc, env: Env): (r: Result<seq<ZipEntry>, string>)
    ensures r.Success? <==> forall i :: 0 <= i < |fs| ==> TemplateEntry(fs[i], doc, env).Success?
    ensures r.Success? ==> |r.value| == |fs|
    ensures r.Success? ==> forall i :: 0 <= i < |fs| ==> r.value[i] == TemplateEntry(fs[i], doc, env).value
    ensures r.Failure? ==>
      exists m :: 0 <= m < |fs|
        && (forall i :: 0 <= i < m ==> TemplateEntry(fs[i], doc, env).Success?)
        && TemplateEntry(fs[m], doc, env) == Failure(r.error)
  {
    if |fs| == 0 then Success([])
    else
      var e :- TemplateEntry(fs[0], doc, env);
      var rest :- ProcessTemplates(fs[1..], doc, env);
      Success([e] + rest)
  }

  /** Processing a concatenation processes the first part, then the second. */
  lemma {:induction false} ProcessTemplatesAppend(a: seq<TemplateFile>, b: seq<TemplateFile>, doc: TourDoc, env: Env)
    ensures ProcessTemplates(a + b, doc, env) ==
      match ProcessTemplates(a, doc, env)
      case Failure(e) => Failure(e)
      case Success(ea) =>
        match ProcessTemplates(b, doc, env)
        case Failure(e) => Failure(e)
        case Success(eb) => Success(ea + eb)
  {
    if |a| == 0 {
      assert a + b == b;
      assert ProcessTemplates(a, doc, env) == Success([]);
      if ProcessTemplates(b, doc, env).Success? {
        assert [] + ProcessTemplates(b, doc, env).value == ProcessTemplates(b, doc, env).value;
      }
    } else {
      assert (a + b)[0] == a[0] && (a + b)[1..] == a[1..] + b;
      ProcessTemplatesAppend(a[1..], b, doc, env);
      if TemplateEntry(a[0], doc, env).Success? {
        var e := TemplateEntry(a[0], doc, env).value;
        var ra := ProcessTemplates(a[1..], doc, env);
        var rb := ProcessTemplates(b, doc, env);
        if ra.Success? && rb.Success? {
          assert ProcessTemplates(a + b, doc, env) == Success([e] + (ra.value + rb.value));
          assert [e] + (ra.value + rb.value) == ([e] + ra.value) + rb.value;
        }
      }
    }
  }

  /** `addTemplateFiles`: a missing template list is an error before anything is added. */
  function AddTemplateFiles(files: Option<seq<TemplateFile>>, doc: TourDoc, env: Env): (r: Result<seq<ZipEntry>, string>)
    ensures files.None? ==> r == Failure(TemplateFilesMissing)
    ensures files.Some? ==> r == ProcessTemplates(files.value, doc, env)
  {
    match files
    case None => Failure(TemplateFilesMissing)
    case Some(fs) => ProcessTemplates(fs, doc, env)
  }

  // ---------------------------------------------------------------- tiles

  /** The directory of a panorama's tiles and preview. */
  function PanoramaDir(uid: string): seq<string> {
    ["app-files", "tiles", uid]
  }

  /** `tilePath.concat([level, face, x, y])`: y names a directory as well as the file. */
  function TileDir(uid: string, k: TileKey): (r: seq<string>)
    ensures |r| == 7 && r[0] == "app-files" && r[1] == "tiles" && r[2] == uid
    ensures r[3] == NatToString(k.level) && r[4] == k.face && r[5] == NatToString(k.x) && r[6] == NatToString(k.y)
  {
    PanoramaDir(uid) + [NatToString(k.level), k.face, NatToString(k.x), NatToString(k.y)]
  }

  function TileName(k: TileKey): string {
    NatToString(k.y) + ".jpg"
  }

  function TileEntry(uid: string, k: TileKey, blob: Blob): ZipEntry {
    ZipEntry(TileDir(uid, k), TileName(k), Binary(blob))
  }

  function PreviewEntry(uid: string, blob: Blob): (e: ZipEntry)
    ensures |e.dir| == 3 && e.dir == PanoramaDir(uid)
  {
    ZipEntry(PanoramaDir(uid), "preview.jpg", Binary(blob))
  }

  /** Distinct tiles, of the same or of different panoramas, never share a path, and a
      preview never shares one with a tile. */
  lemma TilePathsDistinct(u1: string, k1: TileKey, u2: string, k2: TileKey)
    requires TileDir(u1, k1) == TileDir(u2, k2) && TileName(k1) == TileName(k2)
    ensures u1 == u2 && k1 == k2
  {
    var d1, d2 := TileDir(u1, k1), TileDir(u2, k2);
    assert d1[2] == u1 && d2[2] == u2 && d1[4] == k1.face && d2[4] == k2.face;
    assert d1[3] == NatToString(k1.level) && d2[3] == NatToString(k2.level);
    assert d1[5] == NatToString(k1.x) && d2[5] == NatToString(k2.x);
    assert d1[6] == NatToString(k1.y) && d2[6] == NatToString(k2.y);
    NatToStringInjective(k1.level, k2.level);
    NatToStringInjective(k1.x, k2.x);
    NatToStringInjective(k1.y, k2.y);
  }

  /** A preview sits directly in the panorama's directory, never at a tile's path. */
  lemma PreviewIsNotATile(u1: string, blob1: Blob, u2: string, k: TileKey, blob2: Blob)
    ensures PreviewEntry(u1, blob1).dir != TileEntry(u2, k, blob2).dir
  {
    assert |PreviewEntry(u1, blob1).dir| == 3 && |TileEntry(u2, k, blob2).dir| == 7;
  }

  /** `ks` visits every stored tile of `p` once: as many keys as tiles, each stored, none
      repeated. */
  predicate TileOrder(p: Panorama, ks: seq<TileKey>) {
    && |ks| == |p.tiles|
    && (forall i :: 0 <= i < |ks| ==> ks[i] in p.tiles)
    && (forall i, j :: 0 <= i < j < |ks| ==> ks[i] != ks[j])
  }

  /** The preview entry, when the panorama has a preview. */
  function PreviewPart(uid: string, p: Panorama): seq<ZipEntry> {
    if p.cubeMapPreview.Some? then [PreviewEntry(uid, p.cubeMapPreview.value)] else []
  }

  /** One tile entry per visited key, in visiting order. */
  function TilePart(uid: string, p: Panorama, ks: seq<TileKey>): (r: seq<ZipEntry>)
    requires forall i :: 0 <= i < |ks| ==> ks[i] in p.tiles
    ensures |r| == |ks|
    ensures forall i :: 0 <= i < |ks| ==> r[i] == TileEntry(uid, ks[i], p.tiles[ks[i]])
  {
    seq(|ks|, i requires 0 <= i < |ks| => TileEntry(uid, ks[i], p.tiles[ks[i]]))
  }

  /** What one panorama contributes when its store is walked in the order `ks`: the
      preview when there is one, then one tile entry per visited key. */
  function PanoramaEntries(uid: string, p: Panorama, ks: seq<TileKey>): seq<ZipEntry>
    requires forall i :: 0 <= i < |ks| ==> ks[i] in p.tiles
  {
    PreviewPart(uid, p) + TilePart(uid, p, ks)
  }

  /** `part` is exactly what one panorama contributes, for some walk of its store. */
  ghost predicate PanoramaShape(uid: string, p: Panorama, part: seq<ZipEntry>) {
    exists ks :: TileOrder(p, ks) && part == PanoramaEntries(uid, p, ks)
  }

  /** `tileStore.forEach`: every stored tile once, in an order the store leaves open;
      `pos` says where each key was visited. */
  method EnumerateTiles(tiles: map<TileKey, Blob>) returns (ks: seq<TileKey>, ghost pos: map<TileKey, nat>)
    ensures |ks| == |tiles|
    ensures forall i :: 0 <= i < |ks| ==> ks[i] in tiles
    ensures forall i, j :: 0 <= i < j < |ks| ==> ks[i] != ks[j]
    ensures pos.Keys == tiles.Keys
    ensures forall k :: k in pos ==> pos[k] < |ks| && ks[pos[k]] == k
  {
    ks, pos := [], map[];
    var remaining := tiles.Keys;
    while remaining != {}
      invariant remaining <= tiles.Keys
      invariant |ks| + |remaining| == |tiles.Keys|
      invariant forall i :: 0 <= i < |ks| ==> ks[i] in tiles && ks[i] !in remaining
      invariant forall i, j :: 0 <= i < j < |ks| ==> ks[i] != ks[j]
      invariant pos.Keys == tiles.Keys - remaining
      invariant forall k :: k in pos ==> pos[k] < |ks| && ks[pos[k]] == k
      decreases |remaining|
    {
      var k :| k in remaining;
      pos := pos[k := |ks|];
      ks := ks + [k];
      remaining := remaining - {k};
    }
  }

  /** Indexing into the second half of a concatenation. */
  lemma AppendIndex<T>(a: seq<T>, b: seq<T>, j: nat)
    requires j < |b|
    ensures (a + b)[|a| + j] == b[j]
  {
  }

  /** One panorama's contribution: its preview when it has one, then every stored tile
      once, in the store's own enumeration order `order`. */
  method AddPanoramaTiles(uid: string, p: Panorama) returns (entries: seq<ZipEntry>, count: nat)
    ensures PanoramaShape(uid, p, entries)
    ensures count == |p.tiles|
    ensures p.cubeMapPreview.Some? ==> |entries| == count + 1 && entries[0] == PreviewEntry(uid, p.cubeMapPreview.value)
    ensures p.cubeMapPreview.None? ==> |entries| == count
    ensures forall k :: k in p.tiles ==> TileEntry(uid, k, p.tiles[k]) in entries
  {
    var ks, pos := EnumerateTiles(p.tiles);
    var head := PreviewPart(uid, p);
    var tiles := TilePart(uid, p, ks);
    entries := head + tiles;
    count := |ks|;
    assert TileOrder(p, ks) && entries == PanoramaEntries(uid, p, ks);
    forall k | k in p.tiles
      ensures TileEntry(uid, k, p.tiles[k]) in entries
    {
      var i := pos[k];
      AppendIndex(head, tiles, i);
    }
  }

  /** The parts in order, concatenated. */
  function Flatten<T>(parts: seq<seq<T>>): seq<T> {
    if |parts| == 0 then [] else Flatten(parts[..|parts| - 1]) + parts[|parts| - 1]
  }

  /** One more part is appended after the ones before. */
  lemma FlattenSnoc<T>(parts: seq<seq<T>>, x: seq<T>)
    ensures Flatten(parts + [x]) == Flatten(parts) + x
  {
    assert (parts + [x])[..|parts|] == parts;
  }

  /** `parts[i]` is exactly what the `i`-th listed panorama contributes, for `i < n`. */
  ghost predicate ListedParts(c: Collection, slug: string -> string, parts: seq<seq<ZipEntry>>, n: nat)
    requires Listed(c) && n <= |c.list|
  {
    n <= |parts| && forall i :: 0 <= i < n ==> PanoramaShape(UniqueId(c, c.list[i], slug), c.heap[c.list[i]], parts[i])
  }

  /** The next panorama's part extends the listed parts by one. */
  lemma ListedPartsSnoc(c: Collection, slug: string -> string, parts: seq<seq<ZipEntry>>, more: seq<ZipEntry>)
    requires Listed(c) && |parts| < |c.list| && ListedParts(c, slug, parts, |parts|)
    requires PanoramaShape(UniqueId(c, c.list[|parts|], slug), c.heap[c.list[|parts|]], more)
    ensures ListedParts(c, slug, parts + [more], |parts| + 1)
  {
    var n := |parts|;
    forall i | 0 <= i < n + 1
      ensures PanoramaShape(UniqueId(c, c.list[i], slug), c.heap[c.list[i]], (parts + [more])[i])
    {
      if i < n {
        assert (parts + [more])[i] == parts[i];
      }
    }
  }

  /** The total number of stored tiles of the given entries. */
  function TotalTiles(c: Collection, ks: seq<nat>): nat
    requires forall k :: k in ks ==> k in c.heap
  {
    if |ks| == 0 then 0 else TotalTiles(c, ks[..|ks| - 1]) + |c.heap[ks[|ks| - 1]].tiles|
  }

  /** How many of the panoramas `ks` have a cube-map preview. */
  function PreviewCount(c: Collection, ks: seq<nat>): nat
    requires forall k :: k in ks ==> k in c.heap
  {
    if |ks| == 0 then 0
    else PreviewCount(c, ks[..|ks| - 1]) + (if c.heap[ks[|ks| - 1]].cubeMapPreview.Some? then 1 else 0)
  }

  /** A panorama's part holds its preview, if any, and one entry per stored tile. */
  lemma ShapeSize(uid: string, p: Panorama, part: seq<ZipEntry>)
    requires PanoramaShape(uid, p, part)
    ensures |part| == |p.tiles| + (if p.cubeMapPreview.Some? then 1 else 0)
  {
    var ks :| TileOrder(p, ks) && part == PanoramaEntries(uid, p, ks);
  }

  /** The listed parts together hold every listed panorama's tiles and previews, nothing more. */
  lemma {:induction false} ListedPartsSize(c: Collection, slug: string -> string, parts: seq<seq<ZipEntry>>, n: nat)
    requires Listed(c) && n <= |c.list| && |parts| == n && ListedParts(c, slug, parts, n)
    ensures |Flatten(parts)| == TotalTiles(c, c.list[..n]) + PreviewCount(c, c.list[..n])
  {
    if n > 0 {
      var front := parts[..n - 1];
      ListedPartsFront(c, slug, parts, n);
      ListedPartsSize(c, slug, front, n - 1);
      ShapeSize(UniqueId(c, c.list[n - 1], slug), c.heap[c.list[n - 1]], parts[n - 1]);
      assert c.list[..n][..n - 1] == c.list[..n - 1];
    }
  }

  lemma ListedPartsFront(c: Collection, slug: string -> string, parts: seq<seq<ZipEntry>>, n: nat)
    requires Listed(c) && 0 < n <= |c.list| && |parts| == n && ListedParts(c, slug, parts, n)
    ensures ListedParts(c, slug, parts[..n - 1], n - 1)
    ensures PanoramaShape(UniqueId(c, c.list[n - 1], slug), c.heap[c.list[n - 1]], parts[n - 1])
  {
    forall i | 0 <= i < n - 1
      ensures PanoramaShape(UniqueId(c, c.list[i], slug), c.heap[c.list[i]], parts[..n - 1][i])
    {
      assert parts[..n - 1][i] == parts[i];
    }
  }

  /** Everything one listed panorama contributes is among `entries`. */
  predicate Exported(c: Collection, i: nat, slug: string -> string, entries: seq<ZipEntry>)
    requires Listed(c) && i < |c.list|
  {
    var p := c.heap[c.list[i]];
    var uid := UniqueId(c, c.list[i], slug);
    && (forall k :: k in p.tiles ==> TileEntry(uid, k, p.tiles[k]) in entries)
    && (p.cubeMapPreview.Some? ==> PreviewEntry(uid, p.cubeMapPreview.value) in entries)
  }

  lemma ExportedGrows(c: Collection, i: nat, slug: string -> string, entries: seq<ZipEntry>, more: seq<ZipEntry>)
    requires Listed(c) && i < |c.list|
    requires Exported(c, i, slug, entries) || Exported(c, i, slug, more)
    ensures Exported(c, i, slug, entries + more)
  {
  }

  lemma ExportedExtend(c: Collection, n: nat, slug: string -> string, entries: seq<ZipEntry>, more: seq<ZipEntry>)
    requires Listed(c) && n < |c.list|
    requires forall i :: 0 <= i < n ==> Exported(c, i, slug, entries)
    requires Exported(c, n, slug, more)
    ensures forall i :: 0 <= i <= n ==> Exported(c, i, slug, entries + more)
  {
    forall i | 0 <= i <= n
      ensures Exported(c, i, slug, entries + more)
    {
      ExportedGrows(c, i, slug, entries, more);
    }
  }

  lemma TotalTilesStep(c: Collection, ks: seq<nat>, n: nat)
    requires forall k :: k in ks ==> k in c.heap
    requires n < |ks|
    ensures TotalTiles(c, ks[..n + 1]) == TotalTiles(c, ks[..n]) + |c.heap[ks[n]].tiles|
  {
    assert ks[..n + 1][..n] == ks[..n];
  }

  /** What `addTiles` has built after its first `n` panoramas. */
  ghost predicate TilesSoFar(c: Collection, slug: string -> string, n: nat, entries: seq<ZipEntry>, tileCount: nat,
                             parts: seq<seq<ZipEntry>>)
    requires Listed(c) && n <= |c.list|
  {
    && |parts| == n && ListedParts(c, slug, parts, n)
    && entries == Flatten(parts) && tileCount == TotalTiles(c, c.list[..n])
    && (forall i :: 0 <= i < n ==> Exported(c, i, slug, entries))
  }

  /** One round of `addTiles` keeps its loop's facts: the parts so far plus the next
      panorama's part. */
  lemma AddTilesStep(c: Collection, slug: string -> string, n: nat, entries: seq<ZipEntry>, tileCount: nat,
                     parts: seq<seq<ZipEntry>>, more: seq<ZipEntry>, count: nat)
    requires Listed(c) && n < |c.list| && TilesSoFar(c, slug, n, entries, tileCount, parts)
    requires PanoramaShape(UniqueId(c, c.list[n], slug), c.heap[c.list[n]], more)
    requires count == |c.heap[c.list[n]].tiles|
    requires Exported(c, n, slug, more)
    ensures TilesSoFar(c, slug, n + 1, entries + more, tileCount + count, parts + [more])
  {
    TotalTilesStep(c, c.list, n);
    ExportedExtend(c, n, slug, entries, more);
    FlattenSnoc(parts, more);
    ListedPartsSnoc(c, slug, parts, more);
  }

  /** Once every listed panorama is done, the loop's facts are the whole result. */
  lemma TilesDone(c: Collection, slug: string -> string, entries: seq<ZipEntry>, tileCount: nat,
                  parts: seq<seq<ZipEntry>>)
    requires Listed(c) && TilesSoFar(c, slug, |c.list|, entries, tileCount, parts)
    ensures |parts| == |c.list| && ListedParts(c, slug, parts, |c.list|)
    ensures entries == Flatten(parts)
    ensures tileCount == TotalTiles(c, c.list)
    ensures |entries| == TotalTiles(c, c.list) + PreviewCount(c, c.list)
    ensures forall i :: 0 <= i < |c.list| ==> Exported(c, i, slug, entries)
  {
    assert c.list[..|c.list|] == c.list;
    ListedPartsSize(c, slug, parts, |c.list|);
  }

  /** `addTiles`: every listed panorama's preview and tiles under its unique id, in list
      order, one part per panorama; the reported count is the total number of stored
      tiles. */
  method AddTiles(c: Collection, slug: string -> string) returns (entries: seq<ZipEntry>, tileCount: nat, ghost parts: seq<seq<ZipEntry>>)
    requires Listed(c)
    ensures |parts| == |c.list| && ListedParts(c, slug, parts, |c.list|)
    ensures entries == Flatten(parts)
    ensures tileCount == TotalTiles(c, c.list)
    ensures |entries| == TotalTiles(c, c.list) + PreviewCount(c, c.list)
    ensures forall i :: 0 <= i < |c.list| ==> Exported(c, i, slug, entries)
  {
    entries, tileCount, parts := AddTilesLoop(c, slug);
    TilesDone(c, slug, entries, tileCount, parts);
  }

  /** The loop of `addTiles`, one listed panorama per round. */
  method AddTilesLoop(c: Collection, slug: string -> string) returns (entries: seq<ZipEntry>, tileCount: nat, ghost parts: seq<seq<ZipEntry>>)
    requires Listed(c)
    ensures TilesSoFar(c, slug, |c.list|, entries, tileCount, parts)
  {
    entries := [];
    tileCount := 0;
    parts := [];
    var n := 0;
    while n != |c.list|
      invariant n <= |c.list| && TilesSoFar(c, slug, n, entries, tileCount, parts)
      decreases |c.list| - n
    {
      var k := c.list[n];
      var more, count := AddPanoramaTiles(UniqueId(c, k, slug), c.heap[k]);
      AddTilesStep(c, slug, n, entries, tileCount, parts, more, count);
      entries := entries + more;
      tileCount := tileCount + count;
      parts := parts + [more];
      n := n + 1;
    }
  }

  // ---------------------------------------------------------------- the export

  /** The child steps, in the order `getArchive` creates them. */
  const StepNames: seq<string> :=
    ["add_data", "add_template_files", "add_tiles", "generate_zip", "create_blob", "save_blob"]

  datatype Child = Child(name: string, status: Status)

  /** The `ProcessingState` tree: the parent's status and result, its children in
      creation order, and the `tileNum` result of `add_tiles`. */
  datatype Progress = Progress(
    panoramaNum: nat,
    status: Status,
    children: seq<Child>,
    tileNum: Option<nat>,
    byteLength: Option<nat>)

  datatype Saved = Saved(filename: string, mimeType: string, data: Blob)

  /** Where the export ended: a saved blob, or the error that was thrown. */
  datatype Run = Run(progress: Progress, outcome: Result<Saved, string>)

  /** The first `n` steps have been created; all but the newest have succeeded. */
  function Steps(n: nat, newest: Status): (r: seq<Child>)
    requires 1 <= n <= |StepNames|
    ensures |r| == n
    ensures forall i :: 0 <= i < n ==> r[i].name == StepNames[i]
    ensures forall i :: 0 <= i < n - 1 ==> r[i].status == Successful
    ensures r[n - 1].status == newest
  {
    seq(n, i requires 0 <= i < n => Child(StepNames[i], if i == n - 1 then newest else Successful))
  }

  /** `(slug(name) || "marzipano-tour") + ".zip"`. */
  function ArchiveName(name: string, slug: string -> string): (r: string)
    ensures slug(name) != "" ==> r == slug(name) + ".zip"
    ensures slug(name) == "" ==> r == "marzipano-tour.zip"
  {
    (if slug(name) == "" then DefaultArchiveName else slug(name)) + ".zip"
  }

  /** `getArchive(tourData, panoramas, templateFiles)` over the collection's list. Every
      error is thrown, never recorded: the parent stays started, as does the step that
      was running. */
  method GetArchive(doc: TourDoc, c: Collection, templateFiles: Option<seq<TemplateFile>>, env: Env)
    returns (run: Run, archive: seq<ZipEntry>, ghost parts: seq<seq<ZipEntry>>)
    requires Listed(c)
    ensures run.progress.panoramaNum == |c.list|
    ensures 2 <= |run.progress.children| <= |StepNames|
    ensures forall i :: 0 <= i < |run.progress.children| ==> run.progress.children[i].name == StepNames[i]
    ensures forall i :: 0 <= i < |run.progress.children| - 1 ==> run.progress.children[i].status == Successful
    ensures |archive| > 0 && archive[0] == DataEntry(doc, env)
    ensures run.outcome.Success? <==> run.progress.status == Successful
    ensures run.outcome.Failure? ==>
      && run.progress.status == Started
      && run.progress.children[|run.progress.children| - 1].status == Started
    ensures templateFiles.None? ==> run.outcome == Failure(TemplateFilesMissing) && |run.progress.children| == 2
    ensures templateFiles.Some? && ProcessTemplates(templateFiles.value, doc, env).Failure? ==>
      run.outcome == Failure(ProcessTemplates(templateFiles.value, doc, env).error)
      && |run.progress.children| == 2
    ensures |run.progress.children| > 2 ==>
      && templateFiles.Some? && ProcessTemplates(templateFiles.value, doc, env).Success?
      && var ts := ProcessTemplates(templateFiles.value, doc, env).value;
      && |archive| >= 1 + |ts| && archive[1..1 + |ts|] == ts
      && run.progress.tileNum == Some(TotalTiles(c, c.list))
      && (forall i :: 0 <= i < |c.list| ==> Exported(c, i, env.slug, archive))
      && (env.generate(archive).Failure? <==> run.outcome.Failure?)
    ensures templateFiles.Some? && ProcessTemplates(templateFiles.value, doc, env).Success? ==>
      && |run.progress.children| >= 4
      && |parts| == |c.list| && ListedParts(c, env.slug, parts, |c.list|)
      && archive == [DataEntry(doc, env)] + ProcessTemplates(templateFiles.value, doc, env).value + Flatten(parts)
      && run.progress.tileNum == Some(TotalTiles(c, c.list))
      && (run.outcome.Success? <==> env.generate(archive).Success?)
      && (env.generate(archive).Failure? ==>
            run.outcome == Failure(env.generate(archive).error) && |run.progress.children| == 4)
    ensures run.outcome.Success? ==>
      && |run.progress.children| == |StepNames|
      && run.progress.children[|StepNames| - 1].status == Successful
      && env.generate(archive).Success?
      && run.outcome.value == Saved(ArchiveName(doc.name, env.slug), ZipMimeType, env.generate(archive).value)
      && run.progress.byteLength == Some(|run.outcome.value.data|)
  {
    archive := [DataEntry(doc, env)];
    parts := [];
    var n := |c.list|;
    if templateFiles.None? {
      return Run(Progress(n, Started, Steps(2, Started), None, None), Failure(TemplateFilesMissing)), archive, parts;
    }
    var templates := ProcessTemplates(templateFiles.value, doc, env);
    if templates.Failure? {
      return Run(Progress(n, Started, Steps(2, Started), None, None), Failure(templates.error)), archive, parts;
    }
    archive := archive + templates.value;
    var tiles, tileCount, listed := AddTiles(c, env.slug);
    parts := listed;
    assert (archive + tiles)[1 + |templates.value|..] == tiles;
    forall i | 0 <= i < |c.list|
      ensures Exported(c, i, env.slug, archive + tiles)
    {
      ExportedGrows(c, i, env.slug, archive, tiles);
    }
    archive := archive + tiles;
    var zipped := env.generate(archive);
    if zipped.Failure? {
      return Run(Progress(n, Started, Steps(4, Started), Some(tileCount), None), Failure(zipped.error)), archive, parts;
    }
    var data := zipped.value;
    run := Run(Progress(n, Successful, Steps(6, Successful), Some(tileCount), Some(|data|)),
               Success(Saved(ArchiveName(doc.name, env.slug), ZipMimeType, data)));
  }
}

=== FILE: decimal.dfy ===
/** Decimal rendering of non-negative integers, as JavaScript's `n.toString(10)` and
    string concatenation with a number produce it, and its inverse. */
module Decimal {

  predicate IsDigit(c: char) {
    '0' <= c <= '9'
  }

  predicate AllDigits(s: string) {
    forall i :: 0 <= i < |s| ==> IsDigit(s[i])
  }

  function DigitChar(d: nat): (c: char)
    requires d < 10
    ensures IsDigit(c)
  {
    ('0' as int + d) as char
  }

  function DigitValue(c: char): (d: nat)
    requires IsDigit(c)
    ensures d < 10
  {
    c as int - '0' as int
  }

  /** The shortest decimal numeral of `n`: digits only, never empty, no leading zero. */
  function NatToString(n: nat): (s: string)
    ensures |s| > 0 && AllDigits(s)
    ensures |s| > 1 ==> s[0] != '0'
  {
    if n < 10 then [DigitChar(n)] else NatToString(n / 10) + [DigitChar(n % 10)]
  }

  /** The value of a numeral read most-significant digit first. */
  function ParseDecimal(s: string): nat
    requires AllDigits(s)
  {
    if |s| == 0 then 0 else ParseDecimal(s[..|s| - 1]) * 10 + DigitValue(s[|s| - 1])
  }

  /** Reading a rendered number gives the number back. */
  lemma {:induction false} ParseNatToString(n: nat)
    ensures ParseDecimal(NatToString(n)) == n
  {
    var s := NatToString(n);
    if n >= 10 {
      ParseNatToString(n / 10);
      assert s[..|s| - 1] == NatToString(n / 10);
    }
  }

  /** Distinct numbers have distinct numerals. */
  lemma NatToStringInjective(a: nat, b: nat)
    requires NatToString(a) == NatToString(b)
    ensures a == b
  {
    ParseNatToString(a);
    ParseNatToString(b);
  }

  /** `i + "-" + a` determines both `i` and `a`: the numeral ends at the first dash. */
  lemma NumberedNameInjective(i: nat, a: string, j: nat, b: string)
    requires NatToString(i) + "-" + a == NatToString(j) + "-" + b
    ensures i == j && a == b
  {
    var si, sj := NatToString(i), NatToString(j);
    var l, r := si + "-" + a, sj + "-" + b;
    assert l[|si|] == '-' && r[|sj|] == '-';
    assert forall k :: 0 <= k < |si| ==> l[k] == si[k] && si[k] != '-';
    assert forall k :: 0 <= k < |sj| ==> r[k] == sj[k] && sj[k] != '-';
    assert si == l[..|si|] && sj == r[..|sj|];
    NatToStringInjective(i, j);
    assert a == l[|si| + 1..] && b == r[|sj| + 1..];
  }
}

=== FILE: escape.dfy ===
/** The escaping `addTourData` applies to the serialised tour document: U+2028 (LINE
    SEPARATOR) and U+2029 (PARAGRAPH SEPARATOR) are legal inside JSON strings but end a
    line in JavaScript source older than ES2019, so each becomes its six-character
    `\uXXXX` escape before the text is embedded in `data.js`. */
module Escape {
  const LineSeparator: char := '\U{2028}'
  const ParagraphSeparator: char := '\U{2029}'

  /** The six-character escapes written in place of the separators. */
  const LineSeparatorEscape: string := "\\u2028"
  const ParagraphSeparatorEscape: string := "\\u2029"

  /** `s.replace(/c/g, rep)` for a one-character pattern: every occurrence of `c`, left to
      right, is replaced by `rep`. */
  function ReplaceAll(s: string, c: char, rep: string): (r: string)
    ensures c !in s ==> r == s
    ensures c !in rep ==> c !in r
  {
    if |s| == 0 then ""
    else (if s[0] == c then rep else [s[0]]) + ReplaceAll(s[1..], c, rep)
  }

  /** A character that is neither in the text nor in the replacement does not appear in
      the result. */
  lemma {:induction false} ReplaceAllKeepsAbsent(s: string, c: char, rep: string, d: char)
    requires d !in s && d !in rep
    ensures d !in ReplaceAll(s, c, rep)
  {
    if |s| > 0 {
      assert s[0] != d;
      ReplaceAllKeepsAbsent(s[1..], c, rep, d);
    }
  }

  /** Replacement acts on each part of a concatenation separately. */
  lemma {:induction false} ReplaceAllAppend(a: string, b: string, c: char, rep: string)
    ensures ReplaceAll(a + b, c, rep) == ReplaceAll(a, c, rep) + ReplaceAll(b, c, rep)
  {
    if |a| == 0 {
      assert a + b == b;
    } else {
      assert (a + b)[0] == a[0] && (a + b)[1..] == a[1..] + b;
      ReplaceAllAppend(a[1..], b, c, rep);
    }
  }

  /** The two `replace` calls of `addTourData`, in source order. */
  function EscapeSeparators(json: string): (r: string)
    ensures LineSeparator !in r && ParagraphSeparator !in r
    ensures LineSeparator !in json && ParagraphSeparator !in json ==> r == json
  {
    ReplaceAllKeepsAbsent(ReplaceAll(json, LineSeparator, LineSeparatorEscape),
                          ParagraphSeparator, ParagraphSeparatorEscape, LineSeparator);
    ReplaceAll(ReplaceAll(json, LineSeparator, LineSeparatorEscape), ParagraphSeparator, ParagraphSeparatorEscape)
  }

  /** Reference definition, one character at a time: each separator becomes its escape
      and every other character is copied. */
  function EscapeChar(ch: char): string {
    if ch == LineSeparator then LineSeparatorEscape
    else if ch == ParagraphSeparator then ParagraphSeparatorEscape
    else [ch]
  }

  function EscapeChars(s: string): string {
    if |s| == 0 then "" else EscapeChar(s[0]) + EscapeChars(s[1..])
  }

  /** The two whole-string passes agree with the one-character-at-a-time reference: the
      second pass never touches what the first one wrote, and no separator survives. */
  lemma {:induction false} EscapeSeparatorsIsCharwise(s: string)
    ensures EscapeSeparators(s) == EscapeChars(s)
  {
    if |s| > 0 {
      var first := if s[0] == LineSeparator then LineSeparatorEscape else [s[0]];
      var rest := ReplaceAll(s[1..], LineSeparator, LineSeparatorEscape);
      assert ReplaceAll(s, LineSeparator, LineSeparatorEscape) == first + rest;
      ReplaceAllAppend(first, rest, ParagraphSeparator, ParagraphSeparatorEscape);
      assert ParagraphSeparator !in LineSeparatorEscape;
      assert ReplaceAll(first, ParagraphSeparator, ParagraphSeparatorEscape) == EscapeChar(s[0]) by {
        if s[0] == ParagraphSeparator {
          assert first == [ParagraphSeparator];
          assert ReplaceAll(first, ParagraphSeparator, ParagraphSeparatorEscape)
              == ParagraphSeparatorEscape + ReplaceAll([], ParagraphSeparator, ParagraphSeparatorEscape);
        }
      }
      EscapeSeparatorsIsCharwise(s[1..]);
    }
  }

  /** Escaping distributes over concatenation, so each separator is escaped in place. */
  lemma EscapeSeparatorsAppend(a: string, b: string)
    ensures EscapeSeparators(a + b) == EscapeSeparators(a) + EscapeSeparators(b)
  {
    ReplaceAllAppend(a, b, LineSeparator, LineSeparatorEscape);
    ReplaceAllAppend(ReplaceAll(a, LineSeparator, LineSeparatorEscape),
                     ReplaceAll(b, LineSeparator, LineSeparatorEscape),
                     ParagraphSeparator, ParagraphSeparatorEscape);
  }

  /** Escaping twice is the same as escaping once. */
  lemma EscapeSeparatorsIdempotent(s: string)
    ensures EscapeSeparators(EscapeSeparators(s)) == EscapeSeparators(s)
  {
  }

  /** The `data.js` text: an assignment of the escaped document to `APP_DATA`. */
  function DataJs(json: string): (r: string)
    ensures |r| == |EscapeSeparators(json)| + 17
    ensures r[..15] == "var APP_DATA = " && r[|r| - 2..] == ";\n"
    ensures r[15..|r| - 2] == EscapeSeparators(json)
    ensures LineSeparator !in r && ParagraphSeparator !in r
  {
    var e := EscapeSeparators(json);
    var head := "var APP_DATA = " + e;
    assert |head| == 15 + |e| && head[..15] == "var APP_DATA = " && head[15..] == e;
    assert LineSeparator !in "var APP_DATA = " && ParagraphSeparator !in "var APP_DATA = ";
    var r := head + ";\n";
    assert r[..|head|] == head && r[|head|..] == ";\n";
    r
  }
}

=== FILE: hotspots.dfy ===
/** The two hotspot data classes: a link hotspot leads to another panorama, an info
    hotspot carries a title and a text. Both are values; the authoring UI replaces a
    hotspot by its updated copy. */
module Hotspots {
  import opened Wrappers

  /** A navigation marker at (yaw, pitch) with an arrow `rotation`. `target` is a weak
      reference to a panorama: its key in the collection's object store, or `None` for null. */
  datatype LinkHotspot = LinkHotspot(yaw: real, pitch: real, rotation: real, target: Option<nat>)

  /** An information marker. `initialTitle` and `initialText` remember what the hotspot
      was created with, so the editor can tell whether the author has touched it. */
  datatype InfoHotspot = InfoHotspot(
    yaw: real, pitch: real,
    title: string, text: string,
    initialTitle: string, initialText: string)

  /** The exported form of a link hotspot: the target is replaced by its unique id. */
  datatype LinkObject = LinkObject(yaw: real, pitch: real, rotation: real, target: string)

  /** The exported form of an info hotspot. */
  datatype InfoObject = InfoObject(yaw: real, pitch: real, title: string, text: string)

  /** New coordinates, as the dragging code passes them. */
  datatype Coords = Coords(yaw: real, pitch: real)

  // ---------------------------------------------------------------- link hotspots

  /** `new LinkHotspot(yaw, pitch, target)`: the arrow starts unrotated. */
  function NewLinkHotspot(yaw: real, pitch: real, target: Option<nat>): (h: LinkHotspot)
    ensures h.rotation == 0.0
    ensures h.yaw == yaw && h.pitch == pitch && h.target == target
  {
    LinkHotspot(yaw, pitch, 0.0, target)
  }

  /** `setCoordinates`: moves the hotspot; rotation and target are untouched. */
  function SetLinkCoordinates(h: LinkHotspot, c: Coords): (h': LinkHotspot)
    ensures h'.yaw == c.yaw && h'.pitch == c.pitch
    ensures h'.rotation == h.rotation && h'.target == h.target
  {
    h.(yaw := c.yaw, pitch := c.pitch)
  }

  /** `offsetRotation(delta)`: turns the arrow by `delta`; position and target are untouched. */
  function OffsetRotation(h: LinkHotspot, delta: real): (h': LinkHotspot)
    ensures h'.rotation - h.rotation == delta
    ensures h'.yaw == h.yaw && h'.pitch == h.pitch && h'.target == h.target
  {
    h.(rotation := h.rotation + delta)
  }

  /** `setTarget`: re-points the hotspot; position and rotation are untouched. */
  function SetTarget(h: LinkHotspot, target: Option<nat>): (h': LinkHotspot)
    ensures h'.target == target
    ensures h'.yaw == h.yaw && h'.pitch == h.pitch && h'.rotation == h.rotation
  {
    h.(target := target)
  }

  /** Rotating by `delta` and then by `-delta` restores the hotspot exactly. */
  lemma OffsetRotationInverse(h: LinkHotspot, delta: real)
    ensures OffsetRotation(OffsetRotation(h, delta), -delta) == h
  {
  }

  /** Moving, rotating and re-targeting touch disjoint fields, so their order does not matter. */
  lemma LinkEditsCommute(h: LinkHotspot, c: Coords, delta: real, t: Option<nat>)
    ensures SetLinkCoordinates(OffsetRotation(h, delta), c) == OffsetRotation(SetLinkCoordinates(h, c), delta)
    ensures SetTarget(OffsetRotation(h, delta), t) == OffsetRotation(SetTarget(h, t), delta)
    ensures SetTarget(SetLinkCoordinates(h, c), t) == SetLinkCoordinates(SetTarget(h, t), c)
  {
  }

  // ---------------------------------------------------------------- info hotspots

  /** `new InfoHotspot(yaw, pitch, title, text)`. */
  function NewInfoHotspot(yaw: real, pitch: real, title: string, text: string): (h: InfoHotspot)
    ensures IsUnchanged(h)
    ensures h.yaw == yaw && h.pitch == pitch && h.title == title && h.text == text
  {
    InfoHotspot(yaw, pitch, title, text, title, text)
  }

  /** `isUnchanged`: title and text are still those the hotspot was created with, so it
      exports its initial title and text. */
  predicate IsUnchanged(h: InfoHotspot)
    ensures IsUnchanged(h) <==> InfoToObject(h) == InfoObject(h.yaw, h.pitch, h.initialTitle, h.initialText)
  {
    h.title == h.initialTitle && h.text == h.initialText
  }

  /** `setCoordinates`: moves the hotspot and nothing else. */
  function SetInfoCoordinates(h: InfoHotspot, c: Coords): (h': InfoHotspot)
    ensures h'.yaw == c.yaw && h'.pitch == c.pitch
    ensures h'.title == h.title && h'.text == h.text
    ensures h'.initialTitle == h.initialTitle && h'.initialText == h.initialText
    ensures IsUnchanged(h') <==> IsUnchanged(h)
  {
    h.(yaw := c.yaw, pitch := c.pitch)
  }

  /** The author's inline edit of the title (the UI writes the tracked field directly). */
  function EditTitle(h: InfoHotspot, title: string): (h': InfoHotspot)
    ensures h'.title == title
    ensures h' == h.(title := h'.title)
    ensures IsUnchanged(h') <==> title == h.initialTitle && h.text == h.initialText
  {
    h.(title := title)
  }

  /** The author's inline edit of the text. */
  function EditText(h: InfoHotspot, text: string): (h': InfoHotspot)
    ensures h'.text == text
    ensures h' == h.(text := h'.text)
    ensures IsUnchanged(h') <==> h.title == h.initialTitle && text == h.initialText
  {
    h.(text := text)
  }

  /** `toObject`: exactly position, title and text; the initial values are not exported. */
  function InfoToObject(h: InfoHotspot): (o: InfoObject)
    ensures o.yaw == h.yaw && o.pitch == h.pitch && o.title == h.title && o.text == h.text
  {
    InfoObject(h.yaw, h.pitch, h.title, h.text)
  }

  /** Typing a title and then restoring the original leaves an unchanged hotspot unchanged. */
  lemma EditTitleBackIsUnchanged(h: InfoHotspot, t: string)
    requires IsUnchanged(h)
    ensures IsUnchanged(EditTitle(EditTitle(h, t), h.title))
    ensures t != h.title ==> !IsUnchanged(EditTitle(h, t))
  {
  }

  /** Two hotspots that differ only in their remembered initial values export identically. */
  lemma InfoToObjectIgnoresInitials(h: InfoHotspot, t0: string, x0: string)
    ensures InfoToObject(h.(initialTitle := t0, initialText := x0)) == InfoToObject(h)
  {
  }
}

=== FILE: jsarray.dfy ===
/** The two JavaScript `Array.prototype` operations the core relies on, with their
    exact semantics for out-of-range and negative arguments. */
module JsArray {

  /** `s.indexOf(x)`: the first position holding `x`, or -1 when there is none. */
  function IndexOf<T(==)>(s: seq<T>, x: T): (r: int)
    ensures -1 <= r < |s|
    ensures r == -1 <==> x !in s
    ensures 0 <= r ==> s[r] == x && forall j :: 0 <= j < r ==> s[j] != x
  {
    if |s| == 0 then -1
    else if s[0] == x then 0
    else
      var r := IndexOf(s[1..], x);
      if r < 0 then -1 else r + 1
  }

  /** The array left behind by `s.splice(start, 1)`: a negative `start` counts from the
      end and is clamped at 0; a `start` at or past the end removes nothing. */
  function Splice1<T>(s: seq<T>, start: int): (r: seq<T>)
    ensures 0 <= start < |s| ==> r == s[..start] + s[start + 1..]
    ensures -|s| <= start < 0 ==> r == s[..|s| + start] + s[|s| + start + 1..]
    ensures start < -|s| && |s| > 0 ==> r == s[1..]
    ensures start >= |s| || |s| == 0 ==> r == s
  {
    var k := if start < 0 then (if |s| + start < 0 then 0 else |s| + start) else start;
    if k < |s| then s[..k] + s[k + 1..] else s
  }
}

=== FILE: json.dfy ===
/** JSON values, for the parts of documents the core passes through without looking
    inside (project settings, scene fields the post-editing scripts do not read). */
module Json {

  datatype Json =
    | JNull
    | JBool(b: bool)
    | JNumber(n: real)
    | JString(s: string)
    | JArray(items: seq<Json>)
    | JObject(members: seq<(string, Json)>)
}

=== FILE: panorama.dfy ===
/** One panorama entry of the collection (`Panorama` in Panoramas.js): its source files,
    its processing status, its tile store, its write-once tile-pyramid descriptor and
    preview, and its ordered hotspot lists. */
module Panorama {
  import opened Wrappers
  import opened JsArray
  import opened Angles
  import opened Processing
  import opened Hotspots

  type Blob = seq<bv8>

  /** A raw image file chosen by the author. */
  datatype File = File(name: string, data: Blob)

  /** Equirectangular panoramas have one file; cube panoramas have one per face, in the
      order the face map enumerates them. */
  datatype Source = Equirectangular(file: File) | Cube(faces: seq<(string, File)>)

  /** The key of one tile in the tile store. */
  datatype TileKey = TileKey(level: nat, face: string, x: nat, y: nat)

  /** One level of the tile pyramid, coarsest first. */
  datatype Level = Level(tileSize: int, size: int, fallbackOnly: bool)

  /** The `options` argument of `setLevels`; an absent option is `None`. */
  datatype LevelOptions = LevelOptions(cubeMapPreviewSize: Option<int>, faceSize: Option<int>)

  datatype ViewParameters = ViewParameters(yaw: real, pitch: real, fov: real)

  datatype Panorama = Panorama(
    source: Source,
    name: string,
    width: int,
    height: int,
    status: Status,
    tiles: map<TileKey, Blob>,
    cubeMapPreview: Option<Blob>,
    faceSize: Option<int>,
    levels: Option<seq<Level>>,
    cubeMapPreviewSize: Option<int>,
    initialViewParameters: ViewParameters,
    linkHotspots: seq<LinkHotspot>,
    infoHotspots: seq<InfoHotspot>)

  /** The errors the entry throws: programming errors, and the TypeError `setLevels`
      hits when there is no level to read a size from. */
  datatype EntryError = LevelsAlreadySet | NoLevels | PreviewAlreadySet | NoPreviewSize

  /** JavaScript truthiness of an optional number: present and non-zero. */
  predicate Truthy(n: Option<int>) {
    n.Some? && n.value != 0
  }

  /** The fields the write-once setters never touch agree. */
  predicate SameContent(p: Panorama, q: Panorama) {
    && p.source == q.source && p.name == q.name && p.width == q.width && p.height == q.height
    && p.status == q.status && p.tiles == q.tiles
    && p.initialViewParameters == q.initialViewParameters
    && p.linkHotspots == q.linkHotspots && p.infoHotspots == q.infoHotspots
  }

  /** A freshly constructed entry: queued, nothing derived yet, looking straight ahead
      with a 90-degree field of view, no hotspots. */
  function NewPanorama(source: Source, name: string, width: int, height: int): (p: Panorama)
    ensures p.status == Queued
    ensures p.source == source && p.name == name && p.width == width && p.height == height
    ensures p.tiles == map[] && p.levels.None? && p.faceSize.None?
    ensures p.cubeMapPreview.None? && p.cubeMapPreviewSize.None?
    ensures p.initialViewParameters == ViewParameters(0.0, 0.0, PI / 2.0)
    ensures p.linkHotspots == [] && p.infoHotspots == []
  {
    Panorama(source, name, width, height, Queued, map[], None, None, None, None,
             ViewParameters(0.0, 0.0, PI / 2.0), [], [])
  }

  /** `files()`: the single file, or the face files in enumeration order. */
  function Files(p: Panorama): (r: seq<File>)
    ensures p.source.Equirectangular? ==> r == [p.source.file]
    ensures p.source.Cube? ==>
      |r| == |p.source.faces| && forall i :: 0 <= i < |r| ==> r[i] == p.source.faces[i].1
  {
    match p.source
    case Equirectangular(f) => [f]
    case Cube(faces) => seq(|faces|, i requires 0 <= i < |faces| => faces[i].1)
  }

  /** `addTile`: stores one tile; every other tile is kept. */
  function AddTile(p: Panorama, key: TileKey, blob: Blob): (p': Panorama)
    ensures key in p'.tiles && p'.tiles[key] == blob
    ensures forall k :: k in p.tiles && k != key ==> k in p'.tiles && p'.tiles[k] == p.tiles[k]
    ensures p'.tiles.Keys == p.tiles.Keys + {key}
    ensures p'.levels == p.levels && p'.status == p.status
    ensures p' == p.(tiles := p'.tiles)
  {
    p.(tiles := p.tiles[key := blob])
  }

  /** The face size `setLevels` derives: the requested size capped by the finest level,
      or the finest level's size when no (truthy) size was requested. */
  function EffectiveFaceSize(requested: Option<int>, maxSize: int): (f: int)
    ensures f <= maxSize
    ensures Truthy(requested) ==> f <= requested.value && (f == requested.value || f == maxSize)
    ensures !Truthy(requested) ==> f == maxSize
  {
    if Truthy(requested) then (if requested.value < maxSize then requested.value else maxSize)
    else maxSize
  }

  /** `setLevels(levels, options)`: write-once. A truthy preview size prepends a
      fallback-only level of that size; the face size is then derived from the last level. */
  function SetLevels(p: Panorama, levels: seq<Level>, options: LevelOptions): (r: Result<Panorama, EntryError>)
    ensures p.levels.Some? ==> r == Failure(LevelsAlreadySet)
    ensures p.levels.None? && levels == [] && !Truthy(options.cubeMapPreviewSize) ==> r == Failure(NoLevels)
    ensures r.Failure? <==> p.levels.Some? || (levels == [] && !Truthy(options.cubeMapPreviewSize))
    ensures r.Success? ==>
      var q := r.value;
      var pre := if Truthy(options.cubeMapPreviewSize) then 1 else 0;
      && SameContent(p, q) && q.cubeMapPreview == p.cubeMapPreview
      && q.levels.Some? && |q.levels.value| == |levels| + pre
      && q.levels.value[pre..] == levels
      && (pre == 1 ==> q.levels.value[0] == Level(options.cubeMapPreviewSize.value, options.cubeMapPreviewSize.value, true))
      && q.cubeMapPreviewSize == options.cubeMapPreviewSize
      && q.faceSize == Some(EffectiveFaceSize(options.faceSize, q.levels.value[|q.levels.value| - 1].size))
  {
    if p.levels.Some? then Failure(LevelsAlreadySet)
    else
      var copy :=
        if Truthy(options.cubeMapPreviewSize)
        then [Level(options.cubeMapPreviewSize.value, options.cubeMapPreviewSize.value, true)] + levels
        else levels;
      if |copy| == 0 then Failure(NoLevels)
      else
        var maxSize := copy[|copy| - 1].size;
        Success(p.(levels := Some(copy),
                   cubeMapPreviewSize := options.cubeMapPreviewSize,
                   faceSize := Some(EffectiveFaceSize(options.faceSize, maxSize))))
  }

  /** `setCubeMapPreview(blob)`: write-once, and only after `setLevels` negotiated a
      (truthy) preview size. */
  function SetCubeMapPreview(p: Panorama, blob: Blob): (r: Result<Panorama, EntryError>)
    ensures p.cubeMapPreview.Some? ==> r == Failure(PreviewAlreadySet)
    ensures p.cubeMapPreview.None? && !Truthy(p.cubeMapPreviewSize) ==> r == Failure(NoPreviewSize)
    ensures r.Success? <==> p.cubeMapPreview.None? && Truthy(p.cubeMapPreviewSize)
    ensures r.Success? ==>
      && r.value.cubeMapPreview == Some(blob) && SameContent(p, r.value)
      && r.value.levels == p.levels && r.value.faceSize == p.faceSize
      && r.value.cubeMapPreviewSize == p.cubeMapPreviewSize
  {
    if p.cubeMapPreview.Some? then Failure(PreviewAlreadySet)
    else if !Truthy(p.cubeMapPreviewSize) then Failure(NoPreviewSize)
    else Success(p.(cubeMapPreview := Some(blob)))
  }

  /** Once `setLevels` succeeded, every further call fails with `LevelsAlreadySet`,
      whatever its arguments, and a second success is impossible. */
  lemma SetLevelsWriteOnce(p: Panorama, l1: seq<Level>, o1: LevelOptions, l2: seq<Level>, o2: LevelOptions)
    requires SetLevels(p, l1, o1).Success?
    ensures SetLevels(SetLevels(p, l1, o1).value, l2, o2) == Failure(LevelsAlreadySet)
  {
  }

  /** A preview can be stored right after levels with a truthy preview size were set,
      exactly once; without a preview size it can never be stored. */
  lemma PreviewAfterLevels(p: Panorama, levels: seq<Level>, o: LevelOptions, b1: Blob, b2: Blob)
    requires p.cubeMapPreview.None?
    requires SetLevels(p, levels, o).Success?
    ensures var q := SetLevels(p, levels, o).value;
      && (SetCubeMapPreview(q, b1).Success? <==> Truthy(o.cubeMapPreviewSize))
      && (SetCubeMapPreview(q, b1).Success? ==>
            SetCubeMapPreview(SetCubeMapPreview(q, b1).value, b2) == Failure(PreviewAlreadySet))
  {
  }

  /** With a preview size the prepended fallback level is the coarsest, so the face size
      still comes from the finest requested level whenever one was given. */
  lemma FaceSizeFromFinestLevel(p: Panorama, levels: seq<Level>, o: LevelOptions)
    requires p.levels.None? && |levels| > 0
    ensures SetLevels(p, levels, o).Success?
    ensures SetLevels(p, levels, o).value.faceSize == Some(EffectiveFaceSize(o.faceSize, levels[|levels| - 1].size))
  {
  }

  // ---------------------------------------------------------------- hotspot lists

  /** `addLinkHotspot`: appends at the end. */
  function AddLinkHotspot(p: Panorama, h: LinkHotspot): (p': Panorama)
    ensures |p'.linkHotspots| == |p.linkHotspots| + 1
    ensures p'.linkHotspots[..|p.linkHotspots|] == p.linkHotspots && p'.linkHotspots[|p.linkHotspots|] == h
    ensures p'.infoHotspots == p.infoHotspots
    ensures p' == p.(linkHotspots := p'.linkHotspots)
  {
    p.(linkHotspots := p.linkHotspots + [h])
  }

  /** `addInfoHotspot`: appends at the end. */
  function AddInfoHotspot(p: Panorama, h: InfoHotspot): (p': Panorama)
    ensures |p'.infoHotspots| == |p.infoHotspots| + 1
    ensures p'.infoHotspots[..|p.infoHotspots|] == p.infoHotspots && p'.infoHotspots[|p.infoHotspots|] == h
    ensures p'.linkHotspots == p.linkHotspots
    ensures p' == p.(infoHotspots := p'.infoHotspots)
  {
    p.(infoHotspots := p.infoHotspots + [h])
  }

  /** Removal of the first occurrence of `x`, and nothing when `x` is absent: what
      `splice(indexOf(x), 1)` is meant to do. */
  function RemoveFirst<T(==)>(s: seq<T>, x: T): (r: seq<T>)
    ensures x !in s ==> r == s
    ensures x in s ==> |r| == |s| - 1 && multiset(r) == multiset(s) - multiset{x}
    ensures x in s ==> var i := IndexOf(s, x); r == s[..i] + s[i + 1..]
  {
    var i := IndexOf(s, x);
    if i < 0 then s
    else
      assert s == s[..i] + [x] + s[i + 1..];
      s[..i] + s[i + 1..]
  }

  /** `removeLinkHotspot` as written: `splice(indexOf(h), 1)` even when `indexOf` is -1. */
  function RemoveLinkHotspotAsWritten(p: Panorama, h: LinkHotspot): (p': Panorama)
    ensures h in p.linkHotspots ==> p'.linkHotspots == RemoveFirst(p.linkHotspots, h)
    ensures p'.infoHotspots == p.infoHotspots
    ensures p' == p.(linkHotspots := p'.linkHotspots)
  {
    p.(linkHotspots := Splice1(p.linkHotspots, IndexOf(p.linkHotspots, h)))
  }

  /** `removeInfoHotspot` as written. */
  function RemoveInfoHotspotAsWritten(p: Panorama, h: InfoHotspot): (p': Panorama)
    ensures h in p.infoHotspots ==> p'.infoHotspots == RemoveFirst(p.infoHotspots, h)
    ensures p'.linkHotspots == p.linkHotspots
    ensures p' == p.(infoHotspots := p'.infoHotspots)
  {
    p.(infoHotspots := Splice1(p.infoHotspots, IndexOf(p.infoHotspots, h)))
  }

  /** The source's removal of an absent hotspot deletes the LAST hotspot instead:
      `indexOf` yields -1 and `splice(-1, 1)` counts from the end. */
  lemma RemoveAbsentLinkDropsLast(p: Panorama, h: LinkHotspot)
    requires h !in p.linkHotspots && |p.linkHotspots| > 0
    ensures RemoveLinkHotspotAsWritten(p, h).linkHotspots == p.linkHotspots[..|p.linkHotspots| - 1]
    ensures RemoveLinkHotspotAsWritten(p, h).linkHotspots != p.linkHotspots
  {
    var s := p.linkHotspots;
    assert |Splice1(s, IndexOf(s, h))| == |s| - 1;
  }

  /** The same for info hotspots. */
  lemma RemoveAbsentInfoDropsLast(p: Panorama, h: InfoHotspot)
    requires h !in p.infoHotspots && |p.infoHotspots| > 0
    ensures RemoveInfoHotspotAsWritten(p, h).infoHotspots == p.infoHotspots[..|p.infoHotspots| - 1]
    ensures RemoveInfoHotspotAsWritten(p, h).infoHotspots != p.infoHotspots
  {
    var s := p.infoHotspots;
    assert |Splice1(s, IndexOf(s, h))| == |s| - 1;
  }

  /** `removeLinkHotspot` with the evident intent: remove the hotspot if present. */
  function RemoveLinkHotspot(p: Panorama, h: LinkHotspot): (p': Panorama)
    ensures p'.linkHotspots == RemoveFirst(p.linkHotspots, h)
    ensures h !in p.linkHotspots ==> p' == p
    ensures p'.infoHotspots == p.infoHotspots
    ensures p' == p.(linkHotspots := p'.linkHotspots)
  {
    if h in p.linkHotspots then RemoveLinkHotspotAsWritten(p, h) else p
  }

  /** `removeInfoHotspot` with the evident intent. */
  function RemoveInfoHotspot(p: Panorama, h: InfoHotspot): (p': Panorama)
    ensures p'.infoHotspots == RemoveFirst(p.infoHotspots, h)
    ensures h !in p.infoHotspots ==> p' == p
    ensures p'.linkHotspots == p.linkHotspots
    ensures p' == p.(infoHotspots := p'.infoHotspots)
  {
    if h in p.infoHotspots then RemoveInfoHotspotAsWritten(p, h) else p
  }

  /** Adding a hotspot and then removing it restores the list. */
  lemma AddRemoveLinkHotspot(p: Panorama, h: LinkHotspot)
    requires h !in p.linkHotspots
    ensures RemoveLinkHotspot(AddLinkHotspot(p, h), h) == p
  {
    var s := p.linkHotspots + [h];
    assert IndexOf(s, h) == |p.linkHotspots|;
    assert s[..|p.linkHotspots|] == p.linkHotspots;
  }

  /** The same for info hotspots. */
  lemma AddRemoveInfoHotspot(p: Panorama, h: InfoHotspot)
    requires h !in p.infoHotspots
    ensures RemoveInfoHotspot(AddInfoHotspot(p, h), h) == p
  {
    var s := p.infoHotspots + [h];
    assert IndexOf(s, h) == |p.infoHotspots|;
    assert s[..|p.infoHotspots|] == p.infoHotspots;
  }
}

=== FILE: panoramas.dfy ===
/** The panorama collection (`Panoramas` in Panoramas.js): an ordered list of entries,
    a processing slot holding the one entry being processed, and a selection. The
    collection processes queued entries one at a time, in list order.

    JavaScript objects are modelled by an object store `heap` from keys to entries.
    Removing an entry takes it out of `list` but not out of `heap`: hotspots and the
    in-flight completion callback may still refer to it, exactly as they may still
    refer to the removed JavaScript object. */
module Panoramas {
  import opened Wrappers
  import opened JsArray
  import opened Decimal
  import opened Processing
  import opened Hotspots
  import opened Panorama

  /** What an operation does besides changing the state: events it emits and calls it
      makes on collaborators, in order. */
  datatype Effect =
    | Changed                    // the collection's "changed" event
    | StartProcessing(key: nat)  // `processPanorama(entry, callback)` is called
    | CancelProcessing(key: nat) // the in-flight entry's cancel function is called
    | ProcessingFailed(key: nat) // the "processingFailed" event
    | SelectedChanged(key: nat)  // the "selectedPanoramaChanged" event

  datatype Collection = Collection(
    heap: map<nat, Panorama>,
    list: seq<nat>,
    selected: Option<nat>,
    processing: Option<nat>,
    nextKey: nat)

  /** The state after an operation, and its effects. */
  datatype Step = Step(c: Collection, effects: seq<Effect>)

  /** What the image-processing collaborator passes to the completion callback. */
  datatype Outcome = Done | Error(message: string)

  predicate Listed(c: Collection) {
    forall k :: k in c.list ==> k in c.heap
  }

  predicate NoDuplicates(s: seq<nat>) {
    forall i, j :: 0 <= i < j < |s| ==> s[i] != s[j]
  }

  predicate QueuedAt(c: Collection, i: int)
    requires Listed(c) && 0 <= i < |c.list|
  {
    c.heap[c.list[i]].status.Queued?
  }

  /** The structural part of the invariant, which the rescan relies on. */
  predicate Core(c: Collection) {
    && Listed(c)
    && NoDuplicates(c.list)
    && (forall k :: k in c.heap ==> k < c.nextKey)
    // the slot holds a started entry, and every started entry is the one in the slot
    && (c.processing.Some? ==> c.processing.value in c.heap && c.heap[c.processing.value].status.Started?)
    && (forall k :: k in c.heap && c.heap[k].status.Started? ==> c.processing == Some(k))
    // queued entries form a suffix of the list
    && (forall i, j :: 0 <= i < j < |c.list| && QueuedAt(c, i) ==> QueuedAt(c, j))
  }

  /** With the slot empty, nothing in the list is waiting: the rescan has run. */
  predicate Settled(c: Collection)
    requires Listed(c)
  {
    c.processing.None? ==> forall i :: 0 <= i < |c.list| ==> !QueuedAt(c, i)
  }

  /** A non-empty list has a selection, and the selection is a known entry. It need not
      be listed: `select()` on an entry that was already removed still selects it. */
  predicate SelectionOk(c: Collection) {
    && (|c.list| > 0 ==> c.selected.Some?)
    && (c.selected.Some? ==> c.selected.value in c.heap)
  }

  /** The invariant every reachable collection satisfies. */
  predicate Valid(c: Collection) {
    Core(c) && Settled(c) && SelectionOk(c)
  }

  /** `new Panoramas()`. */
  function Empty(): (c: Collection)
    ensures Valid(c) && c.list == [] && c.processing.None? && c.selected.None?
  {
    Collection(map[], [], None, None, 0)
  }

  /** The position of the first queued entry at or after `from`, as lodash `find` scans. */
  function FirstQueued(c: Collection, from: nat): (r: Option<nat>)
    requires Listed(c) && from <= |c.list|
    ensures r.Some? ==>
      && from <= r.value < |c.list| && QueuedAt(c, r.value)
      && forall j :: from <= j < r.value ==> !QueuedAt(c, j)
    ensures r.None? ==> forall j :: from <= j < |c.list| ==> !QueuedAt(c, j)
    decreases |c.list| - from
  {
    if from == |c.list| then None
    else if QueuedAt(c, from) then Some(from)
    else FirstQueued(c, from + 1)
  }

  /** `_handleListChange`: with the slot empty, start the first queued entry in list
      order and put it in the slot; with the slot occupied, do nothing. */
  function HandleListChange(c: Collection): (r: Step)
    requires Listed(c)
    ensures c.processing.Some? || FirstQueued(c, 0).None? ==> r == Step(c, [])
    ensures c.processing.None? && FirstQueued(c, 0).Some? ==>
      var k := c.list[FirstQueued(c, 0).value];
      && r.c.processing == Some(k)
      && r.c.heap.Keys == c.heap.Keys
      && r.c.heap[k] == c.heap[k].(status := Started)
      && (forall k' :: k' in c.heap && k' != k ==> r.c.heap[k'] == c.heap[k'])
      && r.c.list == c.list && r.c.selected == c.selected && r.c.nextKey == c.nextKey
      && r.effects == [Changed, StartProcessing(k)]
  {
    if c.processing.Some? then Step(c, [])
    else
      match FirstQueued(c, 0)
      case None => Step(c, [])
      case Some(i) =>
        var k := c.list[i];
        Step(c.(heap := c.heap[k := c.heap[k].(status := Started)], processing := Some(k)),
             [Changed, StartProcessing(k)])
  }

  /** The rescan keeps the structural invariant and leaves the collection settled. */
  lemma RescanSettles(c: Collection)
    requires Core(c)
    ensures var r := HandleListChange(c).c;
      Core(r) && Settled(r) && r.list == c.list && r.selected == c.selected
  {
    var r := HandleListChange(c).c;
    if c.processing.None? {
      match FirstQueued(c, 0)
      case None =>
      case Some(i) =>
        var k := c.list[i];
        forall a, b | 0 <= a < b < |r.list| && QueuedAt(r, a)
          ensures QueuedAt(r, b)
        {
          assert r.list[a] != k && r.heap[r.list[a]] == c.heap[c.list[a]];
          assert QueuedAt(c, a) && a > i;
          assert QueuedAt(c, b);
          assert r.list[b] != k && r.heap[r.list[b]] == c.heap[c.list[b]];
        }
    }
  }

  /** The status a completion outcome leaves the entry in. */
  function FinalStatus(o: Outcome): (s: Status)
    ensures CanMove(Started, s)
    ensures s.Cancelled? <==> o.Error? && o.message == "cancelled"
    ensures s.Failed? <==> o.Error? && o.message != "cancelled"
    ensures s.Successful? <==> o.Done?
  {
    match o
    case Done => Successful
    case Error(m) => if m == "cancelled" then Cancelled else Failed(m)
  }

  /** The completion callback of the in-flight entry: record the outcome, free the slot,
      rescan. It arrives as an event of its own, after the start has returned. */
  function Complete(c: Collection, o: Outcome): (r: Step)
    requires Valid(c) && c.processing.Some?
    ensures Valid(r.c)
    ensures r.c.heap.Keys == c.heap.Keys
    ensures var k := c.processing.value;
      && r.c.heap[k].status == FinalStatus(o)
      && r.c.list == c.list && r.c.selected == c.selected
      && (ProcessingFailed(k) in r.effects <==> FinalStatus(o).Failed?)
    ensures var k := c.processing.value;
      && r.c.heap[k] == c.heap[k].(status := FinalStatus(o))
      && r.c.nextKey == c.nextKey
    ensures var k := c.processing.value;
      var q := c.(heap := c.heap[k := c.heap[k].(status := FinalStatus(o))], processing := None);
      var fx := if FinalStatus(o).Failed? then [Changed, ProcessingFailed(k)] else [Changed];
      match FirstQueued(q, 0)
      case None =>
        && r.c.processing.None? && r.effects == fx
        && (forall k' :: k' in c.heap && k' != k ==> r.c.heap[k'] == c.heap[k'])
      case Some(i) =>
        && r.c.processing == Some(c.list[i]) && r.effects == fx + [Changed, StartProcessing(c.list[i])]
        && r.c.heap[c.list[i]] == c.heap[c.list[i]].(status := Started)
        && (forall k' :: k' in c.heap && k' != k && k' != c.list[i] ==> r.c.heap[k'] == c.heap[k'])
  {
    var k := c.processing.value;
    var s := FinalStatus(o);
    var q := c.(heap := c.heap[k := c.heap[k].(status := s)], processing := None);
    var fx := if s.Failed? then [Changed, ProcessingFailed(k)] else [Changed];
    FinishThenRescan(c, s);
    var h := HandleListChange(q);
    Step(h.c, fx + h.effects)
  }

  /** The rescan after a completion: the invariant holds again, the list, selection and
      object store keys are unchanged, and the finished entry keeps its terminal status. */
  lemma FinishThenRescan(c: Collection, s: Status)
    requires Valid(c) && c.processing.Some? && s.IsTerminal()
    ensures var k := c.processing.value;
      var q := c.(heap := c.heap[k := c.heap[k].(status := s)], processing := None);
      var h := HandleListChange(q).c;
      && Valid(h) && h.heap.Keys == c.heap.Keys && h.heap[k].status == s
      && h.list == c.list && h.selected == c.selected
      && (FirstQueued(q, 0).None? ==> h.processing.None?)
      && (FirstQueued(q, 0).Some? ==> h.processing == Some(c.list[FirstQueued(q, 0).value]))
  {
    var k := c.processing.value;
    var q := c.(heap := c.heap[k := c.heap[k].(status := s)], processing := None);
    FinishKeepsCore(c, s);
    RescanSettles(q);
    var h := HandleListChange(q).c;
    assert SelectionOk(h);
  }

  /** The events of a completion: those of recording the outcome, then the rescan's,
      which start the first queued entry if there is one. */
  lemma RescanEffects(q: Collection, fx: seq<Effect>)
    requires Listed(q) && q.processing.None?
    requires forall e :: e in fx ==> !e.StartProcessing?
    ensures var h := HandleListChange(q);
      && (forall e :: e in h.effects ==> !e.ProcessingFailed?)
      && (forall e :: e in fx ==> e in fx + h.effects)
      && (FirstQueued(q, 0).Some? ==> StartProcessing(q.list[FirstQueued(q, 0).value]) in fx + h.effects)
  {
    var h := HandleListChange(q);
    if FirstQueued(q, 0).Some? {
      assert (fx + h.effects)[|fx| + 1] == h.effects[1];
    }
  }

  /** Moving the in-flight entry to a terminal status and freeing the slot keeps the
      structural invariant. */
  lemma FinishKeepsCore(c: Collection, s: Status)
    requires Valid(c) && c.processing.Some? && s.IsTerminal()
    ensures var k := c.processing.value;
      var q := c.(heap := c.heap[k := c.heap[k].(status := s)], processing := None);
      && Core(q) && SelectionOk(q)
      && forall i :: 0 <= i < |c.list| ==> (QueuedAt(q, i) <==> QueuedAt(c, i))
  {
    var k := c.processing.value;
    var q := c.(heap := c.heap[k := c.heap[k].(status := s)], processing := None);
    assert forall i :: 0 <= i < |c.list| ==> (QueuedAt(q, i) <==> QueuedAt(c, i));
  }

  /** Whether `_remove` asks for confirmation before removing this entry: not for an
      entry still waiting or whose processing failed or was cancelled. */
  predicate NeedsConfirmation(p: Panorama)
    ensures NeedsConfirmation(p) <==> !(p.status.Queued? || p.status.Failed? || p.status.Cancelled?)
  {
    p.status.Successful? || p.status.Started?
  }

  /** `_remove(entry)` with the author's answer to the confirmation dialog. */
  function Remove(c: Collection, k: nat, confirmed: bool): (r: Step)
    requires Valid(c) && k in c.heap
    ensures Valid(r.c)
    ensures NeedsConfirmation(c.heap[k]) && !confirmed ==> r == Step(c, [])
    ensures k !in c.list ==> r == Step(c, [])
    ensures k in c.list && (confirmed || !NeedsConfirmation(c.heap[k])) ==>
      Dropped(c, IndexOf(c.list, k), r)
  {
    if NeedsConfirmation(c.heap[k]) && !confirmed then Step(c, [])
    else
      var i := IndexOf(c.list, k);
      if i < 0 then Step(c, []) else DropAt(c, i)
  }

  /** What removing the entry at position `i` does: the later entries move up by one;
      the object store and the slot are untouched, because the rescan starts nothing; the
      in-flight entry's cancel function is called exactly once; and a removed selection
      moves to the new first entry, or to nothing. */
  predicate Dropped(c: Collection, i: int, r: Step)
    requires 0 <= i < |c.list|
  {
    var k := c.list[i];
    && |r.c.list| + 1 == |c.list|
    && (forall a :: 0 <= a < |r.c.list| ==> r.c.list[a] == c.list[Skip(a, i)])
    && k !in r.c.list
    && r.c.heap == c.heap && r.c.processing == c.processing && r.c.nextKey == c.nextKey
    && r.effects ==
         (if c.processing == Some(k) then [CancelProcessing(k)] else []) + [Changed]
         + (if c.selected == Some(k) && |r.c.list| > 0 then [SelectedChanged(r.c.list[0])] else [])
    && r.c.selected == (if c.selected != Some(k) then c.selected
                        else if |r.c.list| > 0 then Some(r.c.list[0]) else None)
  }

  /** The removal itself, once `indexOf` has found the entry at position `i`: splice it
      out, cancel it if it is in flight, rescan, and move a removed selection. */
  function DropAt(c: Collection, i: nat): (r: Step)
    requires Valid(c) && i < |c.list|
    ensures Valid(r.c) && Dropped(c, i, r)
  {
    var k := c.list[i];
    var rest := c.list[..i] + c.list[i + 1..];
    var cancel := if c.processing == Some(k) then [CancelProcessing(k)] else [];
    var reselect := c.selected == Some(k) && |rest| > 0;
    var selected := if c.selected != Some(k) then c.selected else if |rest| > 0 then Some(rest[0]) else None;
    var q := c.(list := rest);
    DropIndex(c.list, i);
    DropKeepsCore(c, i);
    CoreIgnoresSelection(q, selected);
    Step(q.(selected := selected), cancel + [Changed] + (if reselect then [SelectedChanged(rest[0])] else []))
  }

  /** `push(type, name, fileData, width, height)`: append a new queued entry, rescan,
      and select it if nothing is selected. */
  function Push(c: Collection, source: Source, name: string, width: int, height: int): (r: Step)
    requires Valid(c)
    ensures Valid(r.c)
    ensures var k := c.nextKey;
      && k !in c.heap
      && r.c.list == c.list + [k]
      && r.c.heap.Keys == c.heap.Keys + {k}
      && (forall k' :: k' in c.heap ==> r.c.heap[k'] == c.heap[k'])
      // the new entry is created queued; the rescan starts it at once if the slot is free
      && r.c.heap[k] == NewPanorama(source, name, width, height).(status := if c.processing.None? then Started else Queued)
      && r.c.processing == (if c.processing.None? then Some(k) else c.processing)
      && r.c.selected == (if c.selected.None? then Some(k) else c.selected)
      && r.effects == [Changed] + (if c.processing.None? then [Changed, StartProcessing(k)] else [])
                      + (if c.selected.None? then [SelectedChanged(k)] else [])
  {
    var k := c.nextKey;
    var q := c.(heap := c.heap[k := NewPanorama(source, name, width, height)],
                list := c.list + [k], nextKey := k + 1);
    var h := HandleListChange(q);
    AppendThenRescan(c, NewPanorama(source, name, width, height));
    CoreIgnoresSelection(h.c, Some(k));
    if c.selected.None? then Step(h.c.(selected := Some(k)), [Changed] + h.effects + [SelectedChanged(k)])
    else Step(h.c, [Changed] + h.effects)
  }

  /** The rescan after appending a fresh queued entry starts it exactly when the slot was
      free, and touches nothing else. */
  lemma AppendThenRescan(c: Collection, p: Panorama)
    requires Valid(c) && p.status.Queued?
    ensures var k := c.nextKey;
      var h := HandleListChange(c.(heap := c.heap[k := p], list := c.list + [k], nextKey := k + 1));
      && k !in c.heap
      && Core(h.c) && Settled(h.c)
      && h.c.list == c.list + [k] && h.c.selected == c.selected && h.c.nextKey == k + 1
      && h.c.heap.Keys == c.heap.Keys + {k}
      && (forall k' :: k' in c.heap ==> h.c.heap[k'] == c.heap[k'])
      && h.c.heap[k] == p.(status := if c.processing.None? then Started else Queued)
      && h.c.processing == (if c.processing.None? then Some(k) else c.processing)
      && h.effects == (if c.processing.None? then [Changed, StartProcessing(k)] else [])
  {
    var k := c.nextKey;
    var q := c.(heap := c.heap[k := p], list := c.list + [k], nextKey := k + 1);
    AppendKeepsCore(c, p);
    RescanSettles(q);
    AppendRescanStarts(c, p);
  }

  /** What the rescan after an append does to the object store and the slot. */
  lemma AppendRescanStarts(c: Collection, p: Panorama)
    requires Valid(c) && p.status.Queued?
    ensures var k := c.nextKey;
      var h := HandleListChange(c.(heap := c.heap[k := p], list := c.list + [k], nextKey := k + 1));
      && k !in c.heap
      && h.c.heap.Keys == c.heap.Keys + {k}
      && (forall k' :: k' in c.heap ==> h.c.heap[k'] == c.heap[k'])
      && h.c.heap[k] == p.(status := if c.processing.None? then Started else Queued)
      && h.c.processing == (if c.processing.None? then Some(k) else c.processing)
      && h.effects == (if c.processing.None? then [Changed, StartProcessing(k)] else [])
  {
    var k := c.nextKey;
    assert k !in c.heap;
    AppendKeepsCore(c, p);
  }

  /** The selection plays no part in the structural invariant. */
  lemma CoreIgnoresSelection(c: Collection, s: Option<nat>)
    requires Core(c) && Settled(c)
    ensures Core(c.(selected := s)) && Settled(c.(selected := s))
  {
    var d := c.(selected := s);
    assert forall i :: 0 <= i < |c.list| ==> QueuedAt(d, i) == QueuedAt(c, i);
  }

  /** Appending a fresh queued entry keeps the structural invariant, and when the slot is
      empty the new entry is the first queued one. */
  lemma AppendKeepsCore(c: Collection, p: Panorama)
    requires Valid(c) && p.status.Queued?
    ensures var q := c.(heap := c.heap[c.nextKey := p], list := c.list + [c.nextKey], nextKey := c.nextKey + 1);
      && Core(q)
      && (c.processing.None? ==> FirstQueued(q, 0) == Some(|c.list|))
  {
    var k := c.nextKey;
    var q := c.(heap := c.heap[k := p], list := c.list + [k], nextKey := k + 1);
    assert k !in c.heap;
    assert Listed(q);
    assert QueuedAt(q, |c.list|);
    AppendKeepsOrder(c, q);
    if c.processing.None? {
      FirstQueuedSkips(q, 0, |c.list|);
    }
  }

  /** The old entries keep their place and status, and the new one adds no duplicate and
      no queued entry before a non-queued one. */
  lemma AppendKeepsOrder(c: Collection, q: Collection)
    requires Valid(c) && Listed(q) && |q.list| == |c.list| + 1 && q.list[|c.list|] !in c.heap
    requires QueuedAt(q, |c.list|)
    requires forall i :: 0 <= i < |c.list| ==> q.list[i] == c.list[i] && q.heap[c.list[i]] == c.heap[c.list[i]]
    ensures forall i :: 0 <= i < |c.list| ==> QueuedAt(q, i) == QueuedAt(c, i)
    ensures NoDuplicates(q.list)
    ensures forall i, j :: 0 <= i < j < |q.list| && QueuedAt(q, i) ==> QueuedAt(q, j)
  {
    forall i, j | 0 <= i < j < |q.list|
      ensures q.list[i] != q.list[j]
    {
      assert c.list[i] in c.heap;
    }
    forall i, j | 0 <= i < j < |q.list| && QueuedAt(q, i)
      ensures QueuedAt(q, j)
    {
      if j < |c.list| {
        assert q.list[i] == c.list[i] && q.list[j] == c.list[j];
        assert QueuedAt(c, i);
        assert QueuedAt(c, j);
      }
    }
  }

  /** The scan passes over a stretch with nothing queued. */
  lemma {:induction false} FirstQueuedSkips(c: Collection, from: nat, to: nat)
    requires Listed(c) && from <= to < |c.list|
    requires forall j :: from <= j < to ==> !QueuedAt(c, j)
    requires QueuedAt(c, to)
    ensures FirstQueued(c, from) == Some(to)
    decreases |c.list| - from
  {
    if from < to {
      FirstQueuedSkips(c, from + 1, to);
    }
  }

  /** Dropping a listed entry keeps the structural invariant and leaves nothing for the
      rescan to start. */
  lemma DropKeepsCore(c: Collection, i: nat)
    requires Valid(c) && i < |c.list|
    ensures var q := c.(list := c.list[..i] + c.list[i + 1..]);
      && Core(q) && Settled(q)
      && HandleListChange(q) == Step(q, [])
      && c.list[i] !in q.list
  {
    var rest := c.list[..i] + c.list[i + 1..];
    DropIndex(c.list, i);
    DropCore(c, rest, i);
  }

  /** The invariant survives dropping position `i`, stated over any list that holds the
      other entries in order. */
  lemma DropCore(c: Collection, rest: seq<nat>, i: nat)
    requires Core(c) && Settled(c) && i < |c.list|
    requires |rest| + 1 == |c.list|
    requires forall a :: 0 <= a < |rest| ==> rest[a] == c.list[Skip(a, i)]
    ensures Core(c.(list := rest)) && Settled(c.(list := rest))
    ensures c.list[i] !in rest
    ensures forall j :: 0 <= j < |c.list| && j != i ==> c.list[j] in rest
  {
    var q := c.(list := rest);
    assert NoDuplicates(rest) by {
      forall a, b | 0 <= a < b < |rest|
        ensures rest[a] != rest[b]
      {
        assert rest[a] == c.list[Skip(a, i)] && rest[b] == c.list[Skip(b, i)];
      }
    }
    assert Listed(q) by {
      forall k | k in rest
        ensures k in c.heap
      {
        var a :| 0 <= a < |rest| && rest[a] == k;
        assert c.list[Skip(a, i)] == k;
      }
    }
    forall a, b | 0 <= a < b < |rest| && QueuedAt(q, a)
      ensures QueuedAt(q, b)
    {
      assert QueuedAt(c, Skip(a, i)) && Skip(a, i) < Skip(b, i);
      assert QueuedAt(c, Skip(b, i));
    }
    assert Settled(q) by {
      forall a | 0 <= a < |rest| && c.processing.None?
        ensures !QueuedAt(q, a)
      {
        assert !QueuedAt(c, Skip(a, i));
      }
    }
    assert c.list[i] !in rest by {
      forall a | 0 <= a < |rest|
        ensures rest[a] != c.list[i]
      {
        assert Skip(a, i) != i;
      }
    }
    forall j | 0 <= j < |c.list| && j != i
      ensures c.list[j] in rest
    {
      var a := if j < i then j else j - 1;
      assert Skip(a, i) == j && rest[a] == c.list[j];
    }
  }

  /** Position `a` of the list without entry `i` holds what position `Skip(a, i)` held. */
  lemma DropIndex(s: seq<nat>, i: nat)
    requires i < |s|
    ensures |s[..i] + s[i + 1..]| == |s| - 1
    ensures forall a :: 0 <= a < |s| - 1 ==> (s[..i] + s[i + 1..])[a] == s[Skip(a, i)]
  {
    var rest := s[..i] + s[i + 1..];
    forall a | 0 <= a < |rest|
      ensures rest[a] == s[Skip(a, i)]
    {
      if a < i {
        assert rest[a] == s[..i][a];
      } else {
        assert rest[a] == s[i + 1..][a - i];
      }
    }
  }

  /** The position in the original list of position `a` of the list without entry `i`. */
  function Skip(a: nat, i: nat): (r: nat)
    ensures r != i && (a < r <==> i <= a)
  {
    if a < i then a else a + 1
  }

  // ---------------------------------------------------------------- selection, identity

  /** `_setSelected(entry)`, reached through `entry.select()`. */
  function SetSelected(c: Collection, k: nat): (r: Step)
    requires Valid(c) && k in c.heap
    ensures r.c.selected == Some(k) && r.effects == [SelectedChanged(k)]
    ensures r.c.heap == c.heap && r.c.list == c.list && r.c.processing == c.processing
    ensures Valid(r.c)
  {
    CoreIgnoresSelection(c, Some(k));
    Step(c.(selected := Some(k)), [SelectedChanged(k)])
  }

  /** `removed()`: the entry is no longer in the list. */
  function Removed(c: Collection, k: nat): (r: bool)
    ensures r <==> k !in c.list
  {
    IndexOf(c.list, k) < 0
  }

  /** `uniqueId()`: the entry's current position and the slug of its name, or the bare
      slug once the entry has been removed. `slug` is the unseen slugging utility. */
  function UniqueId(c: Collection, k: nat, slug: string -> string): string
    requires k in c.heap
  {
    var i := IndexOf(c.list, k);
    if i >= 0 then NatToString(i) + "-" + slug(c.heap[k].name) else slug(c.heap[k].name)
  }

  /** The id of the entry at position `i` is `i + "-" + slug(name)`. */
  lemma UniqueIdPositional(c: Collection, i: nat, slug: string -> string)
    requires Listed(c) && NoDuplicates(c.list) && i < |c.list|
    ensures UniqueId(c, c.list[i], slug) == NatToString(i) + "-" + slug(c.heap[c.list[i]].name)
  {
    assert IndexOf(c.list, c.list[i]) == i;
  }

  /** Distinct listed entries have distinct ids, whatever `slug` does with their names. */
  lemma UniqueIdsDistinct(c: Collection, i: nat, j: nat, slug: string -> string)
    requires Valid(c) && i < |c.list| && j < |c.list| && i != j
    ensures UniqueId(c, c.list[i], slug) != UniqueId(c, c.list[j], slug)
  {
    UniqueIdPositional(c, i, slug);
    UniqueIdPositional(c, j, slug);
    if UniqueId(c, c.list[i], slug) == UniqueId(c, c.list[j], slug) {
      NumberedNameInjective(i, slug(c.heap[c.list[i]].name), j, slug(c.heap[c.list[j]].name));
    }
  }

  /** Ids are positional: removing an earlier entry renumbers every later one. */
  lemma RemoveRenumbers(c: Collection, i: nat, j: nat, slug: string -> string)
    requires Valid(c) && i < j < |c.list|
    ensures var r := Remove(c, c.list[i], true).c;
      c.list[j] in r.heap && UniqueId(r, c.list[j], slug) == NatToString(j - 1) + "-" + slug(c.heap[c.list[j]].name)
  {
    var s := Remove(c, c.list[i], true);
    assert Valid(s.c) && Dropped(c, i, s) by {
      assert IndexOf(c.list, c.list[i]) == i;
    }
    var r := s.c;
    assert r.list[j - 1] == c.list[j] && r.heap == c.heap by {
      assert Skip(j - 1, i) == j;
    }
    UniqueIdPositional(r, j - 1, slug);
  }

  // ---------------------------------------------------------------- link hotspots

  /** `hasValidTarget()`: the target is non-null and still listed. */
  function HasValidTarget(c: Collection, h: LinkHotspot): (r: bool)
    ensures r <==> h.target.Some? && h.target.value in c.list
  {
    h.target.Some? && !Removed(c, h.target.value)
  }

  /** `toObject()`: position, rotation and the target's unique id. A null target makes
      the source throw a TypeError. */
  function LinkToObject(c: Collection, h: LinkHotspot, slug: string -> string): (r: Result<LinkObject, string>)
    requires h.target.Some? ==> h.target.value in c.heap
    ensures r.Success? <==> h.target.Some?
    ensures r.Success? ==>
      && r.value.yaw == h.yaw && r.value.pitch == h.pitch && r.value.rotation == h.rotation
      && r.value.target == UniqueId(c, h.target.value, slug)
  {
    if h.target.None? then Failure("TypeError: target is null")
    else Success(LinkObject(h.yaw, h.pitch, h.rotation, UniqueId(c, h.target.value, slug)))
  }

  /** A hotspot with a valid target exports the id of the listed entry it points at,
      and no other listed entry has that id. */
  lemma ValidTargetExportsItsEntry(c: Collection, h: LinkHotspot, slug: string -> string)
    requires Valid(c) && HasValidTarget(c, h)
    ensures var i := IndexOf(c.list, h.target.value);
      && LinkToObject(c, h, slug).Success?
      && LinkToObject(c, h, slug).value.target == NatToString(i) + "-" + slug(c.heap[c.list[i]].name)
      && forall j :: 0 <= j < |c.list| && j != i ==> LinkToObject(c, h, slug).value.target != UniqueId(c, c.list[j], slug)
  {
    var i := IndexOf(c.list, h.target.value);
    UniqueIdPositional(c, i, slug);
    forall j | 0 <= j < |c.list| && j != i
      ensures LinkToObject(c, h, slug).value.target != UniqueId(c, c.list[j], slug)
    {
      UniqueIdsDistinct(c, i, j, slug);
    }
  }

  // ---------------------------------------------------------------- queue properties

  /** At most one entry is started, and it is the one in the slot. */
  lemma AtMostOneStarted(c: Collection, a: nat, b: nat)
    requires Valid(c) && a in c.heap && b in c.heap
    requires c.heap[a].status.Started? && c.heap[b].status.Started?
    ensures a == b && c.processing == Some(a)
  {
  }

  /** First in, first out: when an entry is started, every entry before it in the list
      has finished. */
  lemma {:induction false} StartedAfterPredecessorsFinished(c: Collection, i: nat, j: nat)
    requires Valid(c) && i < j < |c.list|
    requires c.heap[c.list[j]].status.Started?
    ensures c.heap[c.list[i]].status.IsTerminal()
  {
    assert !QueuedAt(c, j);
    assert !QueuedAt(c, i);
    assert c.list[i] != c.list[j] && c.processing == Some(c.list[j]);
    assert !c.heap[c.list[i]].status.Started?;
  }

  /** A queued entry is removed without confirmation and drops out of the candidates. */
  lemma RemoveQueuedWithoutConfirmation(c: Collection, k: nat)
    requires Valid(c) && k in c.list && c.heap[k].status.Queued?
    ensures var r := Remove(c, k, false);
      k !in r.c.list && r.c.processing == c.processing && |r.c.list| == |c.list| - 1
  {
  }

  /** Removing the in-flight entry cancels it once and keeps the slot occupied; the
      cancellation then arrives as its completion, marks it cancelled, and only then is the
      next queued entry started. */
  lemma RemoveInFlightThenCancelled(c: Collection, k: nat)
    requires Valid(c) && c.processing == Some(k) && k in c.list
    ensures var s1 := Remove(c, k, true);
      && s1.c.processing == Some(k)
      && s1.effects[0] == CancelProcessing(k)
      && CancelProcessing(k) !in s1.effects[1..]
      && (forall e :: e in s1.effects ==> !e.StartProcessing?)
      && var s2 := Complete(s1.c, Error("cancelled"));
         && s2.c.heap[k].status == Cancelled
         && k !in s2.c.list
         && ProcessingFailed(k) !in s2.effects
         && (s2.c.processing.Some? ==> s2.c.processing.value in s1.c.list)
  {
    RemoveInFlightCancels(c, k);
    var s1 := Remove(c, k, true);
    CancelledCompletion(s1.c, k);
  }

  /** The removal half: the cancel call comes first, once, and nothing is started. */
  lemma RemoveInFlightCancels(c: Collection, k: nat)
    requires Valid(c) && c.processing == Some(k) && k in c.list
    ensures var s1 := Remove(c, k, true);
      && Valid(s1.c) && s1.c.processing == Some(k) && k !in s1.c.list
      && |s1.effects| > 0 && s1.effects[0] == CancelProcessing(k)
      && CancelProcessing(k) !in s1.effects[1..]
      && (forall e :: e in s1.effects ==> !e.StartProcessing?)
  {
    var i := IndexOf(c.list, k);
    var s1 := Remove(c, k, true);
    assert Valid(s1.c) && Dropped(c, i, s1);
    var sel := if c.selected == Some(k) && |s1.c.list| > 0 then [SelectedChanged(s1.c.list[0])] else [];
    assert s1.effects == [CancelProcessing(k)] + [Changed] + sel;
    forall n | 1 <= n < |s1.effects|
      ensures s1.effects[n].Changed? || s1.effects[n].SelectedChanged?
    {
      if n >= 2 {
        assert s1.effects[n] == sel[n - 2];
      }
    }
  }

  /** The completion half: a "cancelled" completion of an entry no longer listed marks it
      cancelled, reports no failure, and can only start a listed entry. */
  lemma CancelledCompletion(c: Collection, k: nat)
    requires Valid(c) && c.processing == Some(k) && k !in c.list
    ensures var s2 := Complete(c, Error("cancelled"));
      && s2.c.heap[k].status == Cancelled
      && k !in s2.c.list
      && ProcessingFailed(k) !in s2.effects
      && (s2.c.processing.Some? ==> s2.c.processing.value in c.list)
  {
    var s2 := Complete(c, Error("cancelled"));
    assert FinalStatus(Error("cancelled")) == Cancelled;
    if s2.c.processing.Some? {
      assert s2.c.processing.value in s2.c.list;
    }
  }
}

=== FILE: processing.dfy ===
/** The status part of `ProcessingState`, the progress tracker shared by panorama
    processing and archive export. */
module Processing {

  /** queued → started → one of the three terminal statuses. */
  datatype Status = Queued | Started | Successful | Failed(detail: string) | Cancelled {

    predicate IsTerminal() {
      Successful? || Failed? || Cancelled?
    }
  }

  /** The transitions `ProcessingState` admits; there is no way out of a terminal status. */
  predicate CanMove(from: Status, to: Status) {
    (from.Queued? && to.Started?) || (from.Started? && to.IsTerminal())
  }
}

=== FILE: pytour.dfy ===
/** The tour document as the post-editing scripts read it back from `data.js`. Every
    scene has an `id`; any other key may be absent. A `None` field is an absent key; an
    absent `linkHotspots` list is the empty list, which is what
    `.get('linkHotspots', [])` makes of it. */
module PyTour {
  import opened Wrappers

  datatype PyHotspot = PyHotspot(target: Option<string>, yaw: Option<real>)

  datatype PyScene = PyScene(
    id: string,
    initYaw: Option<real>,
    initFov: Option<real>,
    linkHotspots: seq<PyHotspot>,
    entryAngles: Option<map<string, real>>)

  /** One link hotspot together with the id of the scene it sits in. */
  datatype Link = Link(source: string, hotspot: PyHotspot)

  /** The links of one scene, in list order. */
  function SceneLinks(s: PyScene): (r: seq<Link>)
    ensures |r| == |s.linkHotspots|
    ensures forall j :: 0 <= j < |r| ==> r[j] == Link(s.id, s.linkHotspots[j])
  {
    seq(|s.linkHotspots|, j requires 0 <= j < |s.linkHotspots| => Link(s.id, s.linkHotspots[j]))
  }

  /** The order both scripts visit hotspots in: scenes in order, and each scene's
      hotspots in order. */
  function Links(scenes: seq<PyScene>): seq<Link> {
    if |scenes| == 0 then [] else Links(scenes[..|scenes| - 1]) + SceneLinks(scenes[|scenes| - 1])
  }

  /** A link is visited exactly when its hotspot sits in a scene with its source id. */
  lemma {:induction false} LinksMembership(scenes: seq<PyScene>, l: Link)
    ensures l in Links(scenes) <==>
      exists i :: 0 <= i < |scenes| && scenes[i].id == l.source && l.hotspot in scenes[i].linkHotspots
  {
    if |scenes| > 0 {
      var n := |scenes| - 1;
      var front := scenes[..n];
      LinksMembership(front, l);
      assert l in SceneLinks(scenes[n]) <==> scenes[n].id == l.source && l.hotspot in scenes[n].linkHotspots by {
        if l in SceneLinks(scenes[n]) {
          var j :| 0 <= j < |SceneLinks(scenes[n])| && SceneLinks(scenes[n])[j] == l;
          assert scenes[n].linkHotspots[j] == l.hotspot;
        }
        if scenes[n].id == l.source && l.hotspot in scenes[n].linkHotspots {
          var j :| 0 <= j < |scenes[n].linkHotspots| && scenes[n].linkHotspots[j] == l.hotspot;
          assert SceneLinks(scenes[n])[j] == l;
        }
      }
      if exists i :: 0 <= i < |scenes| && scenes[i].id == l.source && l.hotspot in scenes[i].linkHotspots {
        var i :| 0 <= i < |scenes| && scenes[i].id == l.source && l.hotspot in scenes[i].linkHotspots;
        if i < n {
          assert front[i] == scenes[i];
        }
      }
      if exists i :: 0 <= i < n && front[i].id == l.source && l.hotspot in front[i].linkHotspots {
        var i :| 0 <= i < n && front[i].id == l.source && l.hotspot in front[i].linkHotspots;
        assert scenes[i] == front[i];
      }
    }
  }

  /** The ids of all scenes. */
  function Ids(scenes: seq<PyScene>): (r: set<string>)
    ensures forall id :: id in r <==> exists i :: 0 <= i < |scenes| && scenes[i].id == id
  {
    set i | 0 <= i < |scenes| :: scenes[i].id
  }
}

=== FILE: tourdata.dfy ===
/** `generateData`: the collection snapshotted into the tour document that the exported
    viewer reads. One scene per listed entry, in list order; link hotspots whose target
    has been removed are dropped; info hotspots are all kept. */
module TourData {
  import opened Wrappers
  import opened JsArray
  import opened Hotspots
  import opened Panorama
  import opened Panoramas
  import opened Json

  datatype Scene = Scene(
    id: string,
    name: string,
    levels: Option<seq<Level>>,
    faceSize: Option<int>,
    initialViewParameters: ViewParameters,
    linkHotspots: seq<LinkObject>,
    infoHotspots: seq<InfoObject>)

  datatype TourDoc = TourDoc(scenes: seq<Scene>, name: string, settings: Json)

  /** The link hotspots kept by the `hasValidTarget` filter, in their original order. */
  function ValidLinks(c: Collection, hs: seq<LinkHotspot>): (r: seq<LinkHotspot>)
    ensures forall h :: h in r ==> h in hs && HasValidTarget(c, h)
    ensures forall h :: h in hs && HasValidTarget(c, h) ==> h in r
    ensures forall i :: 0 <= i < |r| ==> HasValidTarget(c, r[i])
    ensures |r| <= |hs|
  {
    if |hs| == 0 then []
    else if HasValidTarget(c, hs[0]) then [hs[0]] + ValidLinks(c, hs[1..])
    else ValidLinks(c, hs[1..])
  }

  /** The filter preserves relative order: it distributes over concatenation. */
  lemma {:induction false} ValidLinksAppend(c: Collection, a: seq<LinkHotspot>, b: seq<LinkHotspot>)
    ensures ValidLinks(c, a + b) == ValidLinks(c, a) + ValidLinks(c, b)
  {
    if |a| == 0 {
      assert a + b == b;
    } else {
      assert (a + b)[0] == a[0] && (a + b)[1..] == a[1..] + b;
      ValidLinksAppend(c, a[1..], b);
    }
  }

  /** When every target is valid the filter keeps everything. */
  lemma {:induction false} ValidLinksAllValid(c: Collection, hs: seq<LinkHotspot>)
    requires forall i :: 0 <= i < |hs| ==> HasValidTarget(c, hs[i])
    ensures ValidLinks(c, hs) == hs
  {
    if |hs| > 0 {
      ValidLinksAllValid(c, hs[1..]);
    }
  }

  /** `toObject()` of each hotspot, all of which have a listed target. */
  function ExportLinks(c: Collection, hs: seq<LinkHotspot>, slug: string -> string): (r: seq<LinkObject>)
    requires Listed(c)
    requires forall i :: 0 <= i < |hs| ==> HasValidTarget(c, hs[i])
    ensures |r| == |hs|
    ensures forall i :: 0 <= i < |hs| ==> HasValidTarget(c, hs[i]) && LinkToObject(c, hs[i], slug) == Success(r[i])
  {
    seq(|hs|, i requires 0 <= i < |hs| => assert HasValidTarget(c, hs[i]); LinkToObject(c, hs[i], slug).value)
  }

  function ExportInfos(hs: seq<InfoHotspot>): (r: seq<InfoObject>)
    ensures |r| == |hs|
    ensures forall i :: 0 <= i < |hs| ==> r[i] == InfoToObject(hs[i])
  {
    seq(|hs|, i requires 0 <= i < |hs| => InfoToObject(hs[i]))
  }

  function SceneOf(c: Collection, k: nat, slug: string -> string): Scene
    requires Listed(c) && k in c.heap
  {
    var p := c.heap[k];
    Scene(UniqueId(c, k, slug), p.name, p.levels, p.faceSize, p.initialViewParameters,
          ExportLinks(c, ValidLinks(c, p.linkHotspots), slug),
          ExportInfos(p.infoHotspots))
  }

  /** `generateData(panoramas, projectName, settings)` over the collection's list. */
  function GenerateData(c: Collection, projectName: string, settings: Json, slug: string -> string): (d: TourDoc)
    requires Listed(c)
    ensures d.name == projectName && d.settings == settings
    ensures |d.scenes| == |c.list|
    ensures forall i :: 0 <= i < |c.list| ==>
      var p := c.heap[c.list[i]];
      var s := d.scenes[i];
      && s.id == UniqueId(c, c.list[i], slug)
      && s.name == p.name && s.levels == p.levels && s.faceSize == p.faceSize
      && s.initialViewParameters == p.initialViewParameters
      && s.linkHotspots == ExportLinks(c, ValidLinks(c, p.linkHotspots), slug)
      && |s.infoHotspots| == |p.infoHotspots|
      && forall j :: 0 <= j < |p.infoHotspots| ==> s.infoHotspots[j] == InfoToObject(p.infoHotspots[j])
  {
    TourDoc(seq(|c.list|, i requires 0 <= i < |c.list| => SceneOf(c, c.list[i], slug)), projectName, settings)
  }

  /** Referential integrity of the document: every exported link target is the id of a
      scene of the same document, namely the scene of the entry the hotspot points at. */
  lemma ExportedTargetsAreScenes(c: Collection, projectName: string, settings: Json, slug: string -> string, i: nat, j: nat)
    requires Valid(c)
    requires i < |c.list| && j < |GenerateData(c, projectName, settings, slug).scenes[i].linkHotspots|
    ensures var d := GenerateData(c, projectName, settings, slug);
      exists m :: 0 <= m < |d.scenes| && d.scenes[i].linkHotspots[j].target == d.scenes[m].id
  {
    var d := GenerateData(c, projectName, settings, slug);
    var hs := ValidLinks(c, c.heap[c.list[i]].linkHotspots);
    assert hs[j] in hs;
    var m := IndexOf(c.list, hs[j].target.value);
    assert d.scenes[i].linkHotspots[j].target == d.scenes[m].id;
  }

  /** After its target entry is removed, a link hotspot no longer appears in the export,
      while every info hotspot still does. */
  lemma RemovedTargetDropped(c: Collection, projectName: string, settings: Json, slug: string -> string, i: nat, h: LinkHotspot)
    requires Valid(c) && i < |c.list|
    requires h.target.Some? && h.target.value !in c.list
    ensures var d := GenerateData(c, projectName, settings, slug);
      && h !in ValidLinks(c, c.heap[c.list[i]].linkHotspots)
      && |d.scenes[i].infoHotspots| == |c.heap[c.list[i]].infoHotspots|
  {
  }
}

=== FILE: transitions.dfy ===
/** `calculate_entry_angles`: every scene that some link hotspot targets records, per
    source scene, the heading to enter with, half a revolution from the link's own yaw.
    The Python function updates the document in place and returns it; here it returns the
    updated scene list. */
module Transitions {
  import opened Wrappers
  import opened Angles
  import opened PyTour

  /** One `entry_angles[target].append({'from': source, 'yaw': yaw})`. */
  datatype Arrival = Arrival(target: string, from: string, yaw: real)

  /** Python truthiness of `hotspot.get('target')`: present and not the empty string. */
  predicate Truthy(t: Option<string>) {
    t.Some? && t.value != ""
  }

  /** The arrival a link with a truthy target records; a missing yaw counts as 0. */
  function ArrivalOf(l: Link): (a: Arrival)
    requires Truthy(l.hotspot.target)
    ensures a.target == l.hotspot.target.value && a.from == l.source
    ensures -PI <= a.yaw <= PI
    ensures Coterminal(l.hotspot.yaw.GetOr(0.0) + PI, a.yaw)
  {
    NormalizeCoterminal(l.hotspot.yaw.GetOr(0.0) + PI);
    Arrival(l.hotspot.target.value, l.source, Normalize(l.hotspot.yaw.GetOr(0.0) + PI))
  }

  /** The first loop: the arrivals recorded, in visiting order, skipping links whose
      target is missing or empty. */
  function Arrivals(links: seq<Link>): (r: seq<Arrival>)
    ensures |r| <= |links|
    ensures forall a :: a in r ==> -PI <= a.yaw <= PI
    ensures forall a :: a in r <==> exists l :: l in links && Truthy(l.hotspot.target) && a == ArrivalOf(l)
  {
    if |links| == 0 then []
    else
      var n := |links| - 1;
      assert links == links[..n] + [links[n]];
      var front := Arrivals(links[..n]);
      if Truthy(links[n].hotspot.target) then front + [ArrivalOf(links[n])] else front
  }

  /** A single link records its arrival exactly when its target is truthy. */
  lemma ArrivalsSingle(l: Link)
    ensures Arrivals([l]) == if Truthy(l.hotspot.target) then [ArrivalOf(l)] else []
  {
    assert [l][..0] == [];
  }

  /** The first loop visits links in order: the arrivals of a concatenation are those of
      the first part followed by those of the second. */
  lemma {:induction false} ArrivalsAppend(a: seq<Link>, b: seq<Link>)
    ensures Arrivals(a + b) == Arrivals(a) + Arrivals(b)
    decreases |b|
  {
    if |b| > 0 {
      var n := |b| - 1;
      var ab := a + b;
      assert ab[..|ab| - 1] == a + b[..n];
      assert ab[|ab| - 1] == b[n];
      ArrivalsAppend(a, b[..n]);
      var tail := if Truthy(b[n].hotspot.target) then [ArrivalOf(b[n])] else [];
      assert Arrivals(ab) == Arrivals(a + b[..n]) + tail;
      assert Arrivals(b) == Arrivals(b[..n]) + tail;
    } else {
      assert a + b == a;
    }
  }

  /** Where the arrival of the link at position `p` sits among all the arrivals: after
      those of the links before it. */
  lemma ArrivalPosition(links: seq<Link>, p: nat) returns (n: nat)
    requires p < |links| && Truthy(links[p].hotspot.target)
    ensures n == |Arrivals(links[..p])| && n < |Arrivals(links)|
    ensures Arrivals(links)[n] == ArrivalOf(links[p])
    ensures Arrivals(links) == Arrivals(links[..p]) + [ArrivalOf(links[p])] + Arrivals(links[p + 1..])
  {
    var l := links[p];
    var before, after := links[..p], links[p + 1..];
    assert links == before + [l] + after;
    ArrivalsAppend(before + [l], after);
    ArrivalsAppend(before, [l]);
    ArrivalsSingle(l);
    n := |Arrivals(before)|;
  }

  /** An arrival after that of the link at position `p` comes from a later link. */
  lemma LaterLink(links: seq<Link>, p: nat, j: nat, n: nat) returns (q: nat)
    requires p < |links| && Truthy(links[p].hotspot.target)
    requires n == |Arrivals(links[..p])|
    requires Arrivals(links) == Arrivals(links[..p]) + [ArrivalOf(links[p])] + Arrivals(links[p + 1..])
    requires n < j < |Arrivals(links)|
    ensures p < q < |links| && Truthy(links[q].hotspot.target) && Arrivals(links)[j] == ArrivalOf(links[q])
  {
    var after := links[p + 1..];
    var a := Arrivals(links)[j];
    assert a == Arrivals(after)[j - n - 1];
    assert a in Arrivals(after);
    var l' :| l' in after && Truthy(l'.hotspot.target) && a == ArrivalOf(l');
    var k :| 0 <= k < |after| && after[k] == l';
    q := p + 1 + k;
  }

  /** The sources recorded for `id`. */
  function Froms(id: string, arrivals: seq<Arrival>): set<string> {
    set a | a in arrivals && a.target == id :: a.from
  }

  /** The second loop's inner loop for one scene: each arrival for `id`, in order,
      assigned into the scene's angle map. */
  function Record(m: map<string, real>, id: string, arrivals: seq<Arrival>): map<string, real> {
    if |arrivals| == 0 then m
    else
      var n := |arrivals| - 1;
      assert arrivals == arrivals[..n] + [arrivals[n]];
      var prev := Record(m, id, arrivals[..n]);
      if arrivals[n].target == id then prev[arrivals[n].from := arrivals[n].yaw] else prev
  }

  /** The last arrival is assigned into what the earlier ones left. */
  lemma RecordLast(m: map<string, real>, id: string, arrivals: seq<Arrival>)
    requires |arrivals| > 0
    ensures var n := |arrivals| - 1;
      Record(m, id, arrivals) == if arrivals[n].target == id
        then Record(m, id, arrivals[..n])[arrivals[n].from := arrivals[n].yaw]
        else Record(m, id, arrivals[..n])
  {
  }

  /** The scene's angle map gains exactly the sources of the arrivals for it. */
  lemma {:induction false} RecordKeys(m: map<string, real>, id: string, arrivals: seq<Arrival>)
    ensures Record(m, id, arrivals).Keys == m.Keys + Froms(id, arrivals)
  {
    if |arrivals| > 0 {
      var n := |arrivals| - 1;
      RecordKeys(m, id, arrivals[..n]);
      assert arrivals == arrivals[..n] + [arrivals[n]];
    }
  }

  /** A key no arrival wrote keeps its value; a written key holds the yaw of one of the
      arrivals for it. */
  lemma {:induction false} RecordValues(m: map<string, real>, id: string, arrivals: seq<Arrival>, k: string)
    ensures var r := Record(m, id, arrivals);
      && (k in r && k !in Froms(id, arrivals) ==> k in m && r[k] == m[k])
      && (k in Froms(id, arrivals) ==> k in r && exists a :: a in arrivals && a.target == id && a.from == k && r[k] == a.yaw)
  {
    RecordKeys(m, id, arrivals);
    if |arrivals| > 0 {
      var n := |arrivals| - 1;
      RecordLast(m, id, arrivals);
      RecordValues(m, id, arrivals[..n], k);
      assert arrivals == arrivals[..n] + [arrivals[n]];
      var prev := Record(m, id, arrivals[..n]);
      if k in Froms(id, arrivals) && !(arrivals[n].target == id && arrivals[n].from == k) {
        var a :| a in arrivals && a.target == id && a.from == k;
        assert a in arrivals[..n];
      }
    }
  }

  /** For several arrivals from the same source, the last one wins. */
  lemma RecordLastWins(m: map<string, real>, id: string, arrivals: seq<Arrival>, i: nat)
    requires i < |arrivals| && arrivals[i].target == id
    requires forall j :: i < j < |arrivals| ==> !(arrivals[j].target == id && arrivals[j].from == arrivals[i].from)
    ensures arrivals[i].from in Record(m, id, arrivals)
    ensures Record(m, id, arrivals)[arrivals[i].from] == arrivals[i].yaw
  {
    assert arrivals[..|arrivals|] == arrivals;
    PrefixLastWins(m, id, arrivals, i, |arrivals|);
  }

  /** The same over the first `k` arrivals. */
  lemma {:induction false} PrefixLastWins(m: map<string, real>, id: string, arrivals: seq<Arrival>, i: nat, k: nat)
    requires i < k <= |arrivals| && arrivals[i].target == id
    requires forall j :: i < j < k ==> !(arrivals[j].target == id && arrivals[j].from == arrivals[i].from)
    ensures arrivals[i].from in Record(m, id, arrivals[..k])
    ensures Record(m, id, arrivals[..k])[arrivals[i].from] == arrivals[i].yaw
    decreases k
  {
    var last := arrivals[k - 1];
    var prev := Record(m, id, arrivals[..k - 1]);
    assert Record(m, id, arrivals[..k]) == if last.target == id then prev[last.from := last.yaw] else prev by {
      var pre := arrivals[..k];
      RecordLast(m, id, pre);
      assert pre[..k - 1] == arrivals[..k - 1];
    }
    if i < k - 1 {
      PrefixLastWins(m, id, arrivals, i, k - 1);
    }
  }

  /** Some link targets scene `id`. */
  predicate Targeted(id: string, arrivals: seq<Arrival>) {
    exists a :: a in arrivals && a.target == id
  }

  /** The second loop for one scene: a targeted scene gains (or extends) `entryAngles`;
      any other scene is left alone. */
  function UpdateScene(s: PyScene, arrivals: seq<Arrival>): (r: PyScene)
    ensures r == s.(entryAngles := r.entryAngles)
    ensures !Targeted(s.id, arrivals) ==> r == s
    ensures Targeted(s.id, arrivals) ==> r.entryAngles == Some(Record(s.entryAngles.GetOr(map[]), s.id, arrivals))
  {
    if Targeted(s.id, arrivals) then s.(entryAngles := Some(Record(s.entryAngles.GetOr(map[]), s.id, arrivals)))
    else s
  }

  /** `calculate_entry_angles(data)` over the document's scene list. */
  function CalculateEntryAngles(scenes: seq<PyScene>): (r: seq<PyScene>)
    ensures |r| == |scenes|
    ensures forall i :: 0 <= i < |scenes| ==> r[i] == UpdateScene(scenes[i], Arrivals(Links(scenes)))
  {
    var arrivals := Arrivals(Links(scenes));
    seq(|scenes|, i requires 0 <= i < |scenes| => UpdateScene(scenes[i], arrivals))
  }

  /** A scene is targeted exactly when some scene holds a link hotspot whose truthy target
      is its id. */
  lemma TargetedIff(scenes: seq<PyScene>, id: string)
    ensures Targeted(id, Arrivals(Links(scenes))) <==>
      exists j, h :: 0 <= j < |scenes| && h in scenes[j].linkHotspots && Truthy(h.target) && h.target.value == id
  {
    var links := Links(scenes);
    if Targeted(id, Arrivals(links)) {
      var a :| a in Arrivals(links) && a.target == id;
      var l :| l in links && Truthy(l.hotspot.target) && a == ArrivalOf(l);
      LinksMembership(scenes, l);
    }
    if exists j, h :: 0 <= j < |scenes| && h in scenes[j].linkHotspots && Truthy(h.target) && h.target.value == id {
      var j, h :| 0 <= j < |scenes| && h in scenes[j].linkHotspots && Truthy(h.target) && h.target.value == id;
      LinksMembership(scenes, Link(scenes[j].id, h));
      assert ArrivalOf(Link(scenes[j].id, h)) in Arrivals(links);
    }
  }

  /** The entry angles of a targeted scene: its earlier keys, plus the id of every scene
      that links to it; a key no link wrote keeps its value, and every written value is a
      normalised heading. */
  lemma EntryAnglesContents(scenes: seq<PyScene>, i: nat, k: string)
    requires i < |scenes| && Targeted(scenes[i].id, Arrivals(Links(scenes)))
    ensures var r := CalculateEntryAngles(scenes)[i];
      var old_ := scenes[i].entryAngles.GetOr(map[]);
      && r.entryAngles.Some?
      && (k in r.entryAngles.value <==> k in old_ || k in Froms(scenes[i].id, Arrivals(Links(scenes))))
      && (k in r.entryAngles.value && k !in Froms(scenes[i].id, Arrivals(Links(scenes))) ==> r.entryAngles.value[k] == old_[k])
      && (k in Froms(scenes[i].id, Arrivals(Links(scenes))) ==> -PI <= r.entryAngles.value[k] <= PI)
  {
    RecordKeys(scenes[i].entryAngles.GetOr(map[]), scenes[i].id, Arrivals(Links(scenes)));
    RecordValues(scenes[i].entryAngles.GetOr(map[]), scenes[i].id, Arrivals(Links(scenes)), k);
  }

  /** A key written by this run is the id of a scene holding a link hotspot that targets
      the scene, with a truthy target. */
  lemma FromsAreLinkingScenes(scenes: seq<PyScene>, id: string, k: string)
    ensures k in Froms(id, Arrivals(Links(scenes))) <==>
      exists j, h :: 0 <= j < |scenes| && scenes[j].id == k && h in scenes[j].linkHotspots
        && Truthy(h.target) && h.target.value == id
  {
    var links := Links(scenes);
    if k in Froms(id, Arrivals(links)) {
      var a :| a in Arrivals(links) && a.target == id && a.from == k;
      var l :| l in links && Truthy(l.hotspot.target) && a == ArrivalOf(l);
      LinksMembership(scenes, l);
    }
    if exists j, h :: 0 <= j < |scenes| && scenes[j].id == k && h in scenes[j].linkHotspots
        && Truthy(h.target) && h.target.value == id {
      var j, h :| 0 <= j < |scenes| && scenes[j].id == k && h in scenes[j].linkHotspots
        && Truthy(h.target) && h.target.value == id;
      LinksMembership(scenes, Link(k, h));
      assert ArrivalOf(Link(k, h)) in Arrivals(links);
    }
  }

  /** For several links from one source to one target, the last one visited sets the
      recorded heading. */
  lemma LastLinkWins(scenes: seq<PyScene>, i: nat, n: nat)
    requires i < |scenes|
    requires var arrivals := Arrivals(Links(scenes));
      n < |arrivals| && arrivals[n].target == scenes[i].id
      && forall j :: n < j < |arrivals| ==> !(arrivals[j].target == scenes[i].id && arrivals[j].from == arrivals[n].from)
    ensures var arrivals := Arrivals(Links(scenes));
      var r := CalculateEntryAngles(scenes)[i];
      r.entryAngles.Some? && arrivals[n].from in r.entryAngles.value
      && r.entryAngles.value[arrivals[n].from] == arrivals[n].yaw
  {
    var arrivals := Arrivals(Links(scenes));
    assert arrivals[n] in arrivals;
    RecordLastWins(scenes[i].entryAngles.GetOr(map[]), scenes[i].id, arrivals, n);
  }

  /** The link at position `p` of the visiting order, with a truthy target, sets the
      heading its source scene enters the target with, unless a later link from the same
      source to the same target overrides it. */
  lemma LastLinkWinsAt(scenes: seq<PyScene>, i: nat, p: nat)
    requires i < |scenes| && p < |Links(scenes)|
    requires Truthy(Links(scenes)[p].hotspot.target) && Links(scenes)[p].hotspot.target.value == scenes[i].id
    requires forall q :: p < q < |Links(scenes)| ==>
      !(Truthy(Links(scenes)[q].hotspot.target) && Links(scenes)[q].hotspot.target.value == scenes[i].id
        && Links(scenes)[q].source == Links(scenes)[p].source)
    ensures var r := CalculateEntryAngles(scenes)[i];
      var l := Links(scenes)[p];
      r.entryAngles.Some? && l.source in r.entryAngles.value
      && r.entryAngles.value[l.source] == ArrivalOf(l).yaw
  {
    var links := Links(scenes);
    var arrivals := Arrivals(links);
    var n := ArrivalPosition(links, p);
    forall j | n < j < |arrivals|
      ensures !(arrivals[j].target == scenes[i].id && arrivals[j].from == arrivals[n].from)
    {
      var q := LaterLink(links, p, j, n);
    }
    LastLinkWins(scenes, i, n);
  }
}

=== FILE: viewconfig.dfy ===
/** `generate_view_config`: for every scene, its default view and, per scene that links
    to it, the view to enter with when arriving from there, turned half a revolution from
    the hotspot that leads back (or, failing that, from the clicked hotspot). */
module ViewConfig {
  import opened Wrappers
  import opened Angles
  import opened PyTour

  /** The field of view used when a scene's `initialViewParameters` has none. */
  const DefaultFov: real := 1.3365071038314758

  datatype View = View(yaw: real, pitch: real, fov: real)

  /** `{'Init_parameters': ..., 'ifCameFrom': {...}}` of one scene id. */
  datatype SceneConfig = SceneConfig(init: View, ifCameFrom: map<string, View>)

  type Config = map<string, SceneConfig>

  /** The `KeyError` Python raises, carrying the missing key. */
  datatype KeyError = KeyError(key: string)

  /** The default view of a scene: its own yaw and fov when present, always level. */
  function InitView(s: PyScene): View {
    View(s.initYaw.GetOr(0.0), 0.0, s.initFov.GetOr(DefaultFov))
  }

  /** No later scene has the same id as scene `i`. */
  predicate LastWithId(scenes: seq<PyScene>, i: int)
    requires 0 <= i < |scenes|
  {
    forall j :: i < j < |scenes| ==> scenes[j].id != scenes[i].id
  }

  /** The first loop: one entry per scene id, written in scene order, so that a repeated
      id keeps the values of its last scene; every `ifCameFrom` starts empty. */
  function InitConfig(scenes: seq<PyScene>): (r: Config)
    ensures r.Keys == Ids(scenes)
    ensures forall id :: id in r ==> r[id].ifCameFrom == map[] && r[id].init.pitch == 0.0
  {
    if |scenes| == 0 then map[]
    else
      var n := |scenes| - 1;
      assert Ids(scenes) == Ids(scenes[..n]) + {scenes[n].id} by {
        assert forall i :: 0 <= i < n ==> scenes[..n][i] == scenes[i];
      }
      InitConfig(scenes[..n])[scenes[n].id := SceneConfig(InitView(scenes[n]), map[])]
  }

  /** A repeated id keeps the default view of its last scene. */
  lemma {:induction false} InitConfigLastWins(scenes: seq<PyScene>, i: nat)
    requires i < |scenes| && LastWithId(scenes, i)
    ensures InitConfig(scenes)[scenes[i].id].init == InitView(scenes[i])
  {
    var n := |scenes| - 1;
    if i < n {
      assert scenes[..n][i] == scenes[i];
      assert LastWithId(scenes[..n], i) by {
        forall j | i < j < n
          ensures scenes[..n][j].id != scenes[..n][i].id
        {
          assert scenes[..n][j] == scenes[j];
        }
      }
      InitConfigLastWins(scenes[..n], i);
      assert scenes[n].id != scenes[i].id;
    }
  }

  /** `next(s for s in scenes if s['id'] == target_id, None)`: the first scene with the id. */
  function FindScene(scenes: seq<PyScene>, id: string): (r: Option<PyScene>)
    ensures r.Some? <==> id in Ids(scenes)
    ensures r.Some? ==>
      exists i :: 0 <= i < |scenes| && scenes[i] == r.value && scenes[i].id == id
        && forall j :: 0 <= j < i ==> scenes[j].id != id
  {
    if |scenes| == 0 then None
    else if scenes[0].id == id then Some(scenes[0])
    else
      var r := FindScene(scenes[1..], id);
      assert Ids(scenes) == Ids(scenes[1..]) + {scenes[0].id};
      if r.Some? then
        var i :| 0 <= i < |scenes[1..]| && scenes[1..][i] == r.value && scenes[1..][i].id == id
          && forall j :: 0 <= j < i ==> scenes[1..][j].id != id;
        assert scenes[i + 1] == r.value && forall j :: 0 <= j < i + 1 ==> scenes[j].id != id;
        r
      else r
  }

  /** The search for the hotspot that leads back to `source`: the yaw of the first one,
      `None` when there is none. Every hotspot inspected must have a target, and the one
      found must have a yaw, or Python raises `KeyError`. */
  function FindReturn(hs: seq<PyHotspot>, source: string): (r: Result<Option<real>, KeyError>)
    ensures r.Success? && r.value.None? ==> forall j :: 0 <= j < |hs| ==> hs[j].target.Some? && hs[j].target.value != source
    ensures r.Success? && r.value.Some? ==>
      exists j :: 0 <= j < |hs|
        && hs[j].target == Some(source) && hs[j].yaw == Some(r.value.value)
        && forall i :: 0 <= i < j ==> hs[i].target.Some? && hs[i].target.value != source
    ensures (forall j :: 0 <= j < |hs| ==> hs[j].target.Some? && hs[j].yaw.Some?) ==> r.Success?
  {
    if |hs| == 0 then Success(None)
    else if hs[0].target.None? then Failure(KeyError("target"))
    else if hs[0].target.value == source then
      if hs[0].yaw.None? then Failure(KeyError("yaw")) else Success(Some(hs[0].yaw.value))
    else
      var r := FindReturn(hs[1..], source);
      if r.Success? && r.value.Some? then
        var j :| 0 <= j < |hs[1..]| && hs[1..][j].target == Some(source) && hs[1..][j].yaw == Some(r.value.value)
          && forall i :: 0 <= i < j ==> hs[1..][i].target.Some? && hs[1..][i].target.value != source;
        assert hs[j + 1] == hs[1..][j] && forall i :: 1 <= i < j + 1 ==> hs[i] == hs[1..][i - 1];
        r
      else r
  }

  /** The search stops at the first hotspot that has no target or leads back to `source`:
      a missing target there is a `KeyError` on `target`, a return hotspot without a yaw one
      on `yaw`, and otherwise its yaw is the result. */
  lemma {:induction false} FindReturnAt(hs: seq<PyHotspot>, source: string, j: nat)
    requires j < |hs| && (hs[j].target.None? || hs[j].target == Some(source))
    requires forall i :: 0 <= i < j ==> hs[i].target.Some? && hs[i].target.value != source
    ensures FindReturn(hs, source) ==
      if hs[j].target.None? then Failure(KeyError("target"))
      else if hs[j].yaw.None? then Failure(KeyError("yaw"))
      else Success(Some(hs[j].yaw.value))
  {
    if j > 0 {
      assert forall i :: 0 <= i < j - 1 ==> hs[1..][i] == hs[i + 1];
      FindReturnAt(hs[1..], source, j - 1);
    }
  }

  /** With every hotspot aimed elsewhere, the search finds nothing and raises nothing. */
  lemma {:induction false} FindReturnNone(hs: seq<PyHotspot>, source: string)
    requires forall i :: 0 <= i < |hs| ==> hs[i].target.Some? && hs[i].target.value != source
    ensures FindReturn(hs, source) == Success(None)
  {
    if |hs| > 0 {
      assert forall i :: 0 <= i < |hs| - 1 ==> hs[1..][i] == hs[i + 1];
      FindReturnNone(hs[1..], source);
    }
  }

  /** The entry yaw for arriving at `target` through hotspot `h` of scene `source`: half
      a revolution from the first return hotspot of the first scene with that id, or from
      `h` itself when there is no return hotspot; always normalised. */
  function EntryYaw(scenes: seq<PyScene>, source: string, h: PyHotspot, target: string): (r: Result<real, KeyError>)
    ensures r.Success? ==> -PI <= r.value <= PI
    ensures FindScene(scenes, target).Some? && FindReturn(FindScene(scenes, target).value.linkHotspots, source).Success? ==>
      var back := FindReturn(FindScene(scenes, target).value.linkHotspots, source).value;
      back.Some? ==> r == Success(Normalize(back.value + PI))
    ensures (FindScene(scenes, target).None? || FindReturn(FindScene(scenes, target).value.linkHotspots, source) == Success(None)) ==>
      (r.Success? <==> h.yaw.Some?) && (r.Success? ==> r.value == Normalize(h.yaw.value + PI))
    ensures FindScene(scenes, target).Some? && FindReturn(FindScene(scenes, target).value.linkHotspots, source).Failure? ==>
      r == Failure(FindReturn(FindScene(scenes, target).value.linkHotspots, source).error)
  {
    var back :-
      match FindScene(scenes, target)
      case None => Success(None)
      case Some(s) => FindReturn(s.linkHotspots, source);
    if back.Some? then Success(Normalize(back.value + PI))
    else if h.yaw.None? then Failure(KeyError("yaw"))
    else Success(Normalize(h.yaw.value + PI))
  }

  /** The view stored for arriving at `target` from `source`: level, with the target's
      default field of view. */
  predicate ArrivalView(c: Config, target: string, v: View)
    requires target in c
  {
    -PI <= v.yaw <= PI && v.pitch == 0.0 && v.fov == c[target].init.fov
  }

  /** Every stored arrival view is level, normalised, and uses its scene's default fov. */
  predicate ViewsOk(c: Config) {
    forall k, a :: k in c && a in c[k].ifCameFrom ==> ArrivalView(c, k, c[k].ifCameFrom[a])
  }

  /** The body of the inner loop for one link. As written, the fov lookup
      `view_config[target_id]` comes before the `if target_id in view_config` guard, so an
      unknown target raises `KeyError`; with `guarded` the lookup sits under the guard and
      such a link is skipped. */
  function LinkStep(scenes: seq<PyScene>, c: Config, l: Link, guarded: bool): (r: Result<Config, KeyError>)
    ensures r.Success? ==> r.value.Keys == c.Keys && forall k :: k in c ==> r.value[k].init == c[k].init
    ensures r.Success? <==> LinkOk(scenes, c.Keys, l, guarded)
    ensures r.Success? ==> forall k :: k in c ==>
      r.value[k].ifCameFrom == if l.hotspot.target == Some(k)
        then c[k].ifCameFrom[l.source := View(EntryYaw(scenes, l.source, l.hotspot, k).value, 0.0, c[k].init.fov)]
        else c[k].ifCameFrom
    ensures ViewsOk(c) && r.Success? ==> ViewsOk(r.value)
  {
    var target :- if l.hotspot.target.None? then Failure(KeyError("target")) else Success(l.hotspot.target.value);
    var yaw :- EntryYaw(scenes, l.source, l.hotspot, target);
    if target in c then
      var e := c[target];
      Success(c[target := e.(ifCameFrom := e.ifCameFrom[l.source := View(yaw, 0.0, e.init.fov)])])
    else if guarded then Success(c)
    else Failure(KeyError(target))
  }

  /** The inner loop's body raises nothing for this link. */
  predicate LinkOk(scenes: seq<PyScene>, keys: set<string>, l: Link, guarded: bool) {
    && l.hotspot.target.Some?
    && EntryYaw(scenes, l.source, l.hotspot, l.hotspot.target.value).Success?
    && (guarded || l.hotspot.target.value in keys)
  }

  /** The nested loops over all links, in visiting order; the first error is raised. */
  function ApplyLinks(scenes: seq<PyScene>, c: Config, links: seq<Link>, guarded: bool): (r: Result<Config, KeyError>)
    ensures r.Success? ==> r.value.Keys == c.Keys && forall k :: k in c ==> r.value[k].init == c[k].init
    ensures ViewsOk(c) && r.Success? ==> ViewsOk(r.value)
  {
    if |links| == 0 then Success(c)
    else
      var c' :- ApplyLinks(scenes, c, links[..|links| - 1], guarded);
      LinkStep(scenes, c', links[|links| - 1], guarded)
  }

  /** The last link is processed on the configuration the earlier ones left. */
  lemma ApplyLinksLast(scenes: seq<PyScene>, c: Config, links: seq<Link>, guarded: bool)
    requires |links| > 0 && ApplyLinks(scenes, c, links, guarded).Success?
    ensures ApplyLinks(scenes, c, links[..|links| - 1], guarded).Success?
    ensures ApplyLinks(scenes, c, links, guarded)
      == LinkStep(scenes, ApplyLinks(scenes, c, links[..|links| - 1], guarded).value, links[|links| - 1], guarded)
  {
  }

  /** The loops run to the end exactly when no link raises. */
  lemma {:induction false} ApplyLinksSucceeds(scenes: seq<PyScene>, c: Config, links: seq<Link>, guarded: bool)
    ensures ApplyLinks(scenes, c, links, guarded).Success? <==>
      forall i :: 0 <= i < |links| ==> LinkOk(scenes, c.Keys, links[i], guarded)
  {
    if |links| > 0 {
      var n := |links| - 1;
      var p := ApplyLinks(scenes, c, links[..n], guarded);
      assert p.Success? <==> forall i :: 0 <= i < n ==> LinkOk(scenes, c.Keys, links[i], guarded) by {
        ApplyLinksSucceeds(scenes, c, links[..n], guarded);
        assert forall i :: 0 <= i < n ==> links[..n][i] == links[i];
      }
      if p.Success? {
        assert p.value.Keys == c.Keys;
        assert ApplyLinks(scenes, c, links, guarded) == LinkStep(scenes, p.value, links[n], guarded);
      }
    }
  }

  /** A link from `a` to `k` among `links`. */
  predicate LinksTo(links: seq<Link>, a: string, k: string) {
    exists i :: 0 <= i < |links| && links[i].source == a && links[i].hotspot.target == Some(k)
  }

  /** A link from `a` to `k` is among the earlier links or is the last one. */
  lemma LinksToLast(links: seq<Link>, a: string, k: string)
    requires |links| > 0
    ensures var n := |links| - 1;
      LinksTo(links, a, k) <==> LinksTo(links[..n], a, k) || (links[n].source == a && links[n].hotspot.target == Some(k))
  {
    var n := |links| - 1;
    if LinksTo(links, a, k) {
      var i :| 0 <= i < |links| && links[i].source == a && links[i].hotspot.target == Some(k);
      if i < n {
        assert links[..n][i] == links[i];
      }
    }
    if LinksTo(links[..n], a, k) {
      var i :| 0 <= i < n && links[..n][i].source == a && links[..n][i].hotspot.target == Some(k);
      assert links[..n][i] == links[i];
    }
  }

  /** After the loops, `a` is a key of `k`'s `ifCameFrom` exactly when it was before or
      some link leads from `a` to `k`. */
  lemma {:induction false} ApplyLinksCameFrom(scenes: seq<PyScene>, c: Config, links: seq<Link>, guarded: bool, k: string, a: string)
    requires ApplyLinks(scenes, c, links, guarded).Success? && k in c
    ensures a in ApplyLinks(scenes, c, links, guarded).value[k].ifCameFrom <==>
      a in c[k].ifCameFrom || LinksTo(links, a, k)
  {
    if |links| > 0 {
      var n := |links| - 1;
      ApplyLinksLast(scenes, c, links, guarded);
      var prev := ApplyLinks(scenes, c, links[..n], guarded).value;
      var r := ApplyLinks(scenes, c, links, guarded).value;
      assert k in prev;
      assert a in r[k].ifCameFrom <==>
        a in prev[k].ifCameFrom || (links[n].source == a && links[n].hotspot.target == Some(k));
      assert a in prev[k].ifCameFrom <==> a in c[k].ifCameFrom || LinksTo(links[..n], a, k) by {
        ApplyLinksCameFrom(scenes, c, links[..n], guarded, k, a);
      }
      LinksToLast(links, a, k);
    }
  }

  /** The view stored for `a` in `k` comes from the last link from `a` to `k`. */
  lemma {:induction false} ApplyLinksLastWins(scenes: seq<PyScene>, c: Config, links: seq<Link>, guarded: bool, i: nat)
    requires ApplyLinks(scenes, c, links, guarded).Success?
    requires i < |links| && links[i].hotspot.target.Some? && links[i].hotspot.target.value in c
    requires forall j :: i < j < |links| ==>
      !(links[j].source == links[i].source && links[j].hotspot.target == links[i].hotspot.target)
    ensures var r := ApplyLinks(scenes, c, links, guarded).value;
      var k := links[i].hotspot.target.value;
      && k in r && links[i].source in r[k].ifCameFrom
      && EntryYaw(scenes, links[i].source, links[i].hotspot, k).Success?
      && r[k].ifCameFrom[links[i].source] == View(EntryYaw(scenes, links[i].source, links[i].hotspot, k).value, 0.0, c[k].init.fov)
  {
    var n := |links| - 1;
    var k := links[i].hotspot.target.value;
    var a := links[i].source;
    ApplyLinksLast(scenes, c, links, guarded);
    var prev := ApplyLinks(scenes, c, links[..n], guarded).value;
    assert k in prev && prev[k].init == c[k].init;
    if i < n {
      assert links[..n][i] == links[i];
      forall j | i < j < n
        ensures !(links[..n][j].source == links[..n][i].source && links[..n][j].hotspot.target == links[..n][i].hotspot.target)
      {
        assert links[..n][j] == links[j];
      }
      ApplyLinksLastWins(scenes, c, links[..n], guarded, i);
      LinkStepKeeps(scenes, prev, links[n], guarded, k, a);
    } else {
      LinkStepSets(scenes, prev, links[n], guarded, k);
    }
  }

  /** A link that succeeds stores its arrival view in its target's `ifCameFrom`. */
  lemma LinkStepSets(scenes: seq<PyScene>, c: Config, l: Link, guarded: bool, k: string)
    requires LinkStep(scenes, c, l, guarded).Success? && l.hotspot.target == Some(k) && k in c
    ensures EntryYaw(scenes, l.source, l.hotspot, k).Success?
    ensures var r := LinkStep(scenes, c, l, guarded).value;
      k in r && l.source in r[k].ifCameFrom
      && r[k].ifCameFrom[l.source] == View(EntryYaw(scenes, l.source, l.hotspot, k).value, 0.0, c[k].init.fov)
  {
  }

  /** A link from elsewhere, or to elsewhere, leaves the view stored for `a` in `k` alone. */
  lemma LinkStepKeeps(scenes: seq<PyScene>, c: Config, l: Link, guarded: bool, k: string, a: string)
    requires LinkStep(scenes, c, l, guarded).Success? && k in c && a in c[k].ifCameFrom
    requires !(l.source == a && l.hotspot.target == Some(k))
    ensures var r := LinkStep(scenes, c, l, guarded).value;
      k in r && a in r[k].ifCameFrom && r[k].ifCameFrom[a] == c[k].ifCameFrom[a]
  {
  }

  /** `generate_view_config(tour_data)` as written. */
  function Generate(scenes: seq<PyScene>): Result<Config, KeyError> {
    ApplyLinks(scenes, InitConfig(scenes), Links(scenes), false)
  }

  /** The same with the fov lookup moved under the guard: links to unknown scenes are
      skipped. */
  function GenerateGuarded(scenes: seq<PyScene>): Result<Config, KeyError> {
    ApplyLinks(scenes, InitConfig(scenes), Links(scenes), true)
  }

  /** The result has one entry per scene id, whose default view is its last scene's,
      level; every arrival view is level, normalised, and uses the target's default fov. */
  lemma GenerateShape(scenes: seq<PyScene>, guarded: bool)
    requires ApplyLinks(scenes, InitConfig(scenes), Links(scenes), guarded).Success?
    ensures var r := ApplyLinks(scenes, InitConfig(scenes), Links(scenes), guarded).value;
      && r.Keys == Ids(scenes)
      && (forall i :: 0 <= i < |scenes| && LastWithId(scenes, i) ==> r[scenes[i].id].init == InitView(scenes[i]))
      && ViewsOk(r)
  {
    assert ViewsOk(InitConfig(scenes));
    forall i | 0 <= i < |scenes| && LastWithId(scenes, i)
      ensures InitConfig(scenes)[scenes[i].id].init == InitView(scenes[i])
    {
      InitConfigLastWins(scenes, i);
    }
  }

  /** The keys of `ifCameFrom` of scene `b` are exactly the ids of scenes holding a link
      hotspot that targets `b`. */
  lemma GenerateCameFrom(scenes: seq<PyScene>, guarded: bool, b: string, a: string)
    requires ApplyLinks(scenes, InitConfig(scenes), Links(scenes), guarded).Success?
    requires b in Ids(scenes)
    ensures a in ApplyLinks(scenes, InitConfig(scenes), Links(scenes), guarded).value[b].ifCameFrom <==>
      exists i, h :: 0 <= i < |scenes| && scenes[i].id == a && h in scenes[i].linkHotspots && h.target == Some(b)
  {
    var links := Links(scenes);
    ApplyLinksCameFrom(scenes, InitConfig(scenes), links, guarded, b, a);
    if LinksTo(links, a, b) {
      var j :| 0 <= j < |links| && links[j].source == a && links[j].hotspot.target == Some(b);
      LinksMembership(scenes, links[j]);
    }
    if exists i, h :: 0 <= i < |scenes| && scenes[i].id == a && h in scenes[i].linkHotspots && h.target == Some(b) {
      var i, h :| 0 <= i < |scenes| && scenes[i].id == a && h in scenes[i].linkHotspots && h.target == Some(b);
      LinksMembership(scenes, Link(a, h));
      var j :| 0 <= j < |links| && links[j] == Link(a, h);
    }
  }

  /** As written, the run completes exactly when every link has a target that names a
      scene and an entry yaw that can be computed. */
  lemma GenerateSucceeds(scenes: seq<PyScene>)
    ensures Generate(scenes).Success? <==>
      forall l :: l in Links(scenes) ==> LinkOk(scenes, Ids(scenes), l, false)
  {
    ApplyLinksSucceeds(scenes, InitConfig(scenes), Links(scenes), false);
  }

  /** As written, a link to an id that names no scene makes the whole run fail. */
  lemma UnknownTargetRejected(scenes: seq<PyScene>, l: Link)
    requires l in Links(scenes) && l.hotspot.target.Some? && l.hotspot.target.value !in Ids(scenes)
    ensures Generate(scenes).Failure?
  {
    GenerateSucceeds(scenes);
  }

  /** A concrete input: scene "a" links to "b", which does not exist. */
  lemma UnknownTargetExample()
    ensures var scenes := [PyScene("a", None, None, [PyHotspot(Some("b"), Some(0.0))], None)];
      && Generate(scenes) == Failure(KeyError("b"))
      && GenerateGuarded(scenes).Success?
  {
    var scenes := [PyScene("a", None, None, [PyHotspot(Some("b"), Some(0.0))], None)];
    var l := Link("a", PyHotspot(Some("b"), Some(0.0)));
    assert scenes[..0] == [];
    assert Links(scenes) == [l];
    assert InitConfig(scenes).Keys == {"a"};
    assert FindScene(scenes, "b") == None;
    assert [l][..0] == [];
  }

  /** With the guard, the run completes exactly when every link has a target and an
      entry yaw that can be computed; unknown targets no longer matter. */
  lemma GenerateGuardedSucceeds(scenes: seq<PyScene>)
    ensures GenerateGuarded(scenes).Success? <==>
      forall l :: l in Links(scenes) ==>
        l.hotspot.target.Some? && EntryYaw(scenes, l.source, l.hotspot, l.hotspot.target.value).Success?
  {
    ApplyLinksSucceeds(scenes, InitConfig(scenes), Links(scenes), true);
  }

  /** The guard changes nothing for links whose targets all exist. */
  lemma {:induction false} GuardIrrelevant(scenes: seq<PyScene>, c: Config, links: seq<Link>)
    requires forall i :: 0 <= i < |links| && links[i].hotspot.target.Some? ==> links[i].hotspot.target.value in c
    ensures ApplyLinks(scenes, c, links, false) == ApplyLinks(scenes, c, links, true)
  {
    if |links| > 0 {
      var n := |links| - 1;
      var p := ApplyLinks(scenes, c, links[..n], false);
      assert p == ApplyLinks(scenes, c, links[..n], true) by {
        assert forall i :: 0 <= i < n ==> links[..n][i] == links[i];
        GuardIrrelevant(scenes, c, links[..n]);
      }
      if p.Success? {
        assert links[n].hotspot.target.Some? ==> links[n].hotspot.target.value in p.value;
        GuardedStep(scenes, p.value, links[n]);
      }
    }
  }

  /** One link whose target, if any, is known: the guard is never consulted. */
  lemma GuardedStep(scenes: seq<PyScene>, c: Config, l: Link)
    requires l.hotspot.target.Some? ==> l.hotspot.target.value in c
    ensures LinkStep(scenes, c, l, false) == LinkStep(scenes, c, l, true)
  {
  }

  /** When every target names a scene, the guarded version is the program as written. */
  lemma GuardedAgreesOnKnownTargets(scenes: seq<PyScene>)
    requires forall l :: l in Links(scenes) && l.hotspot.target.Some? ==> l.hotspot.target.value in Ids(scenes)
    ensures GenerateGuarded(scenes) == Generate(scenes)
  {
    GuardIrrelevant(scenes, InitConfig(scenes), Links(scenes));
  }
}

=== FILE: wrappers.dfy ===
/** Failure-compatible wrappers used for JavaScript's `null` and for thrown errors. */
module Wrappers {

  /** `None` stands for JavaScript's `null`/`undefined` and for an absent JSON key. */
  datatype Option<+T> = None | Some(value: T) {

    /** The wrapped value, or `default` when absent (Python's `dict.get(key, default)`). */
    function GetOr(default: T): T {
      match this
      case Some(v) => v
      case None => default
    }
  }

  /** `Failure` stands for an exception the source raises. */
  datatype Result<+T, +E> = Success(value: T) | Failure(error: E) {

    predicate IsFailure() {
      Failure?
    }

    function PropagateFailure<U>(): Result<U, E>
      requires Failure?
    {
      Failure(error)
    }

    function Extract(): T
      requires Success?
    {
      value
    }
  }
}
